=== FILE: README.md ===
# CPU scheduling simulator: the scheduling engine in Dafny

This project models the engine of a small CPU-scheduling simulator and proves what it does. Each simulated process runs a program of assembly-like mnemonics. An instruction costs a fixed time: LOAD 10, STORE 20, ADD 1, SUB 1, MUL 5, DIV 5. Any other mnemonic costs 0.

An operating-system model holds:
- a global clock;
- a Round Robin quantum and a context-switch penalty;
- an append-only process table of scheduling records;
- a ready list of the records admitted as ready.

Two schedulers run the ready processes and update the clock and the records:
- **First come, first served (FCFS)** runs each process to completion.
- **Round Robin (RR)** gives each process a slice of at most one quantum. An instruction is never split. When the next instruction does not fit, the rest of the quantum is forfeited and the process goes to the back of the queue.

Both schedulers charge the penalty on every dispatch except the first.

## Modules

- `Wrappers` (`wrappers.dfy`): `Option`, used for the unset end time of a record.
- `Instructions` (`instructions.dfy`): the cost table, and Python's `str.strip()` over the full `str.isspace()` character set.
- `Processes` (`process.dfy`): a process as an instruction list plus a program counter; `is_finished`, peek and execute.
- `ProcessTableEntries` (`process_table_entry.dfy`): the scheduling record, and its turnaround and waiting metrics.
- `OperatingSystem` (`operating_system.dfy`): the operating-system state; admission and context switch.
- `Scheduler` (`scheduler.dfy`): FCFS and RR as pure functions over a `Machine`. A `Machine` pairs the operating-system state with the map from process id to process.
- `SchedulerProperties` (`scheduler_properties.dfy`): the clock, CPU-time and end-time laws of both schedulers, and the condition under which RR behaves exactly like FCFS.
- `Scenarios` (`scenarios.dfy`): the concrete runs of the repository's tests, plus two preemption runs.

### How the model represents the program's state

**Shared records.** In the program, the ready list holds the same record objects as the process table. A scheduler's update of a record is therefore visible through both. The model keeps the ready list and the RR queue as sequences of slots, i.e. indices into the table. The schedulers write the table at those slots, which keeps the sharing exact.

**Mutation.** The program mutates processes in place. The model instead returns an updated `procs` map from each step. That map holds each process by value: one process object registered under two ids becomes two independent processes in the model (see "## Left out").

**First dispatch.** The program's `prev_process_id is not None` test becomes a boolean `first`. Process ids are integers, so the two are equivalent.

### Behaviour proved about the source

These are facts about the program as written, not corrections to it.

**A context switch is charged on every dispatch but the first, even when the same process is dispatched again.** A single preempted process therefore pays the penalty when its next slice starts.

**A process whose remaining cost exactly equals the quantum can still be preempted.** This happens when the slice uses the whole quantum while zero-cost instructions are still left, because the slice loop stops when no quantum remains (models/scheduler.py:57). The process then pays an extra context switch.
- `Scenarios.ExactQuantumCostsASwitch` shows one such run: STORE then an unknown mnemonic, with quantum 20 and penalty 5. RR ends at time 25 and FCFS at time 20.
- Because of this, `SchedulerProperties.RoundRobinMatchesFcfs` requires every remaining cost to be strictly below the quantum.
- The single-process test calls its program one "that fits in one time slice" (tests/test_scheduler.py:38). `SchedulerProperties.RrDispatchIsFcfsDispatch` proves that a process whose remaining cost is strictly below the quantum finishes in its first slice, exactly as under FCFS. `Scenarios.ExactQuantumCostsASwitch` shows that a cost equal to the quantum need not.

## Model

| member | source | states |
|---|---|---|
| Instructions.Lookup | models/process.py:2-9 | a looked-up cost never exceeds 20 (STORE), and it is 0 exactly when the key is not one of the six mnemonics |
| Instructions.CostOfMnemonic | models/process.py:2-9 | each mnemonic written exactly as in the table costs its table entry |
| Instructions.Strip | models/process.py:33 | the stripped instruction starts and ends with a non-space character (or is empty) and is no longer than the input |
| Instructions.StripRemovesPadding | models/process.py:33 | stripping any whitespace padding around an already trimmed mnemonic gives back exactly that mnemonic |
| Instructions.Cost | models/process.py:33-34 | an instruction's cost is at most 20, and it is 0 exactly when its stripped text is not a known mnemonic |
| Instructions.CostIgnoresPadding | models/process.py:33-34 | whitespace around a mnemonic does not change its cost |
| Processes.NewProcess | models/process.py:11-20 | a new process starts at its first instruction; it is finished exactly when its program is empty; its remaining cost is the whole program's cost, at most 20 per instruction |
| Processes.IsFinished | models/process.py:22-24 | a process is finished exactly when its counter has reached or passed the end of its instruction list |
| Processes.FinishedExactly | models/process.py:22-24 | a process is finished exactly when no instruction is left to run; it then has no remaining cost and peeks at 0, and a valid counter sits exactly at the end |
| Processes.PeekCost | models/process.py:26-34 | the next instruction's cost is at most 20, and it is 0 exactly when the process is finished or the mnemonic is unknown |
| Processes.Execute | models/process.py:36-45 | execution returns what a peek reports; it leaves a finished process unchanged; otherwise it advances the program counter by exactly one; remaining cost drops by exactly the returned cost |
| Processes.ExecuteMany | models/process.py:36-45 | n executions advance the counter by n, capped at the end of the program; the costs returned add up to the remaining cost that disappeared |
| Processes.FinishedStaysFinished | models/process.py:41-42 | executing a finished process any number of times returns 0 and changes nothing |
| Processes.RunningOutFinishes | models/process.py:22-45 | executing as many times as instructions remain finishes the process and returns its whole remaining cost |
| Processes.ExecuteKnown | models/process.py:43-45 | executing a known mnemonic advances the counter and returns its table cost |
| Processes.LoadAddStoreRun | tests/test_process.py:29-40 | LOAD, ADD, STORE return 10, 1, 20 and then 0 once the process is finished |
| Processes.UnknownMnemonicIsFree | tests/test_process.py:23-27 | an unknown mnemonic (FOO) costs 0 |
| ProcessTableEntries.NewEntry | models/process_table_entry.py:2-20 | a record carries the given id, state and start time; end time and CPU time default to unset and 0 |
| ProcessTableEntries.Turnaround | models/process_table_entry.py:12-13 | start time plus turnaround is the end time |
| ProcessTableEntries.Waiting | models/process_table_entry.py:12-14 | waiting plus CPU time is the turnaround; waiting is non-negative exactly when the record's lifetime covers its CPU time |
| ProcessTableEntries.FreshEntryDefaults | tests/test_process_table_entry.py:4-16 | a record built with only id, state and start time has no end time and no CPU time |
| ProcessTableEntries.MetricExamples | tests/test_process_table_entry.py:34-59 | the test records give turnaround 100 and waiting 150 |
| OperatingSystem.Init | models/operating_system.py:4-21 | a new model has clock 0, an empty table and ready list, and the given quantum and penalty |
| OperatingSystem.AddProcess | models/operating_system.py:23-34 | admission appends one fresh record and keeps the existing ones; a ready record joins the back of the ready list and no other record does; the clock is unchanged; a well-formed ready list stays well-formed |
| OperatingSystem.AddReadyIsShared | models/operating_system.py:31-34 | the newly added ready-list slot names the very record just appended to the table |
| OperatingSystem.SwitchContext | models/operating_system.py:36-43 | a context switch advances the clock by the penalty and changes nothing else |
| OperatingSystem.SwitchContextIgnoresIds | models/operating_system.py:36-43 | the ids passed to a context switch make no difference to its effect |
| OperatingSystem.AdmissionExamples | tests/test_operating_system.py:4-34 | defaults are quantum 500 and penalty 20; a ready admission lands in both lists, a non-ready one only in the table |
| Scheduler.RunToCompletion | models/scheduler.py:19-23 | the inner FCFS loop finishes the process, and adds exactly its remaining cost to both the CPU time and the clock |
| Scheduler.RunToCompletionExecutesAll | models/scheduler.py:19-23 | the inner FCFS loop ends where executing every remaining instruction one by one ends, and charges the sum of those costs to CPU time and clock alike |
| Scheduler.FcfsDispatch | models/scheduler.py:12-28 | one FCFS dispatch charges the penalty unless it is first, finishes the process, adds its remaining cost to clock and CPU time, and sets the end time to the new clock and the state to done; no other record changes |
| Scheduler.FcfsLoop | models/scheduler.py:12-28 | records outside the list are untouched; CPU times never decrease; with a non-negative penalty the clock never goes back |
| Scheduler.FcfsProcsFrame | models/scheduler.py:12-23 | processes not on the list, and processes already finished, are left as they were |
| Scheduler.FcfsCompletes | models/scheduler.py:12-25 | every listed record ends done with an end time, and its process ends finished |
| Scheduler.Fcfs | models/scheduler.py:1-28 | FCFS completes every ready record, keeps every record's id and start time, and leaves the ready list and configuration as they were |
| Scheduler.RunSlice | models/scheduler.py:54-66 | a slice moves CPU time, clock and quantum by the same amount, namely the cost executed; it stops only when finished, out of quantum or when the next cost does not fit; with a quantum of at least 20 it always makes progress |
| Scheduler.RrDispatch | models/scheduler.py:44-80 | one RR dispatch uses at most one quantum of cost. A finished process leaves the queue with end time set and state done. An unfinished one forfeits the rest of the quantum, so the clock moves by a full quantum, and it rejoins the back of the queue |
| Scheduler.RrDispatchDecreases | models/scheduler.py:44-73 | with a quantum of at least 20, the instructions left across the queue plus its length strictly decrease, so RR terminates |
| Scheduler.RrLoop | models/scheduler.py:39-80 | records outside the queue are untouched; CPU times never decrease; with a non-negative penalty the clock never goes back |
| Scheduler.RrHead | models/scheduler.py:44-73 | the queue is FIFO: the rest moves up one place, and a preempted process goes to the back |
| Scheduler.RrProcsFrame | models/scheduler.py:44-73 | processes not queued, and processes already finished, are left as they were |
| Scheduler.RrCompletes | models/scheduler.py:44-80 | every queued record ends done with an end time, and its process ends finished |
| Scheduler.RoundRobin | models/scheduler.py:30-80 | RR completes every ready record, keeps every record's id and start time, and leaves the ready list and configuration as they were |
| SchedulerProperties.FcfsClock | models/scheduler.py:12-23 | the FCFS clock advances by the CPU time charged plus one penalty per dispatch after the first |
| SchedulerProperties.SwitchCostIsPerSwitch | models/scheduler.py:15-17 | the penalties charged over n dispatches total the penalty times the number of switches (n-1 from a first dispatch) |
| SchedulerProperties.FcfsCpuTime | models/scheduler.py:19-22 | for distinct processes, each record is charged exactly its process's remaining cost |
| SchedulerProperties.FcfsTotalTime | models/scheduler.py:1-28 | FCFS ends at the start time plus the total cost of all ready programs plus penalty times (N-1) |
| SchedulerProperties.FcfsEndBounds | models/scheduler.py:19-24 | each end time is at least the start clock plus the CPU time that record gained during the run, and at most the final clock |
| SchedulerProperties.FcfsEndOrder | models/scheduler.py:12-25 | with a non-negative penalty, FCFS end times follow the ready-list order |
| SchedulerProperties.FcfsLastEnd | models/scheduler.py:24 | the last record in the list ends at the final clock |
| SchedulerProperties.RrDispatchClock | models/scheduler.py:48-77 | one RR dispatch adds its cost to the total CPU time, and moves the clock by at least that cost |
| SchedulerProperties.RrClockCoversCpu | models/scheduler.py:44-80 | over a whole RR run, the clock advances by at least the total CPU time charged |
| SchedulerProperties.RrEndTimes | models/scheduler.py:44-80 | each RR end time is set, at least the start clock plus the CPU time the record gained during the run, and at most the final clock |
| SchedulerProperties.RrLastEnd | models/scheduler.py:74-77 | some queued record ends at the final clock: RR never ends on a forfeited slice |
| SchedulerProperties.RrCpuTime | models/scheduler.py:57-63 | for distinct processes, RR charges each record exactly its process's remaining cost, summed over all of its slices |
| SchedulerProperties.RoundRobinCharges | models/scheduler.py:30-80 | for ready records of distinct processes, RR charges each record exactly the remaining cost of its process (the whole program for a fresh process) |
| SchedulerProperties.RrDispatchIsFcfsDispatch | models/scheduler.py:57-77 | a process whose remaining cost is below the quantum finishes in one slice, exactly as an FCFS dispatch would |
| SchedulerProperties.RrMatchesFcfs | models/scheduler.py:1-80 | when every queued process costs less than the quantum, the RR run equals the FCFS run |
| SchedulerProperties.RoundRobinMatchesFcfs | models/scheduler.py:1-80 | with every ready program cheaper than the quantum, RR and FCFS produce the same final state |
| SchedulerProperties.FcfsWaitingNonNegative | tests/test_parameter_sweep.py:37-38 | after FCFS, no ready record has a negative waiting time, provided each one was admitted by the starting clock with its CPU time already counted |
| SchedulerProperties.RoundRobinWaitingNonNegative | tests/test_parameter_sweep.py:37-38 | the same holds after RR |
| Scenarios.FcfsTestRun | tests/test_scheduler.py:5-35 | FCFS on programs costing 31 and 20 with no penalty ends at 51, both records done with CPU times 31 and 20 |
| Scenarios.RoundRobinSingleRun | tests/test_scheduler.py:37-55 | RR on one program costing 31 with quantum 200 ends at 31, and the record is done with end and CPU time 31 |
| Scenarios.RoundRobinTestRun | tests/test_scheduler.py:57-89 | RR on programs costing 31 and 23 with quantum 200 ends them at 31 and 54 |
| Scenarios.RoundRobinPreemptRun | models/scheduler.py:57-73 | LOAD, STORE with quantum 20 and penalty 5: STORE does not fit after LOAD, so 10 is forfeited and a switch is paid; the run ends at 45 with CPU time 30 and waiting 15 |
| Scenarios.ExactQuantumCostsASwitch | models/scheduler.py:57-73 | a program costing exactly the quantum and ending in a free instruction is preempted once, so RR ends at 25 where FCFS ends at 20 |

## Left out

- utils/parameter_sweep.py, utils/process_generator.py and main.py are not part of this model. They cover random program generation, command-line handling, file loading and charts, which is orchestration around the engine.
- The `current_process` field (models/operating_system.py:18) is set once and never read, so it is not modelled.
- The `slice_elapsed` local (models/scheduler.py:70) is computed and never used, so it is not modelled.
- `OperatingSystem.SwitchContext` is never called by the schedulers. Like the source, both schedulers add the penalty to the clock directly.
- The process-state strings are narrowed to three values: ready, running and done. Admission only asks whether the state is ready, and the schedulers only write done.
- A ready record whose process id is missing from the process map raises `KeyError` in the source. The model makes a present id a precondition (`Scheduler.Schedulable`) instead of modelling the exception.
- Scheduler.RrLoop: requires a quantum of at least 20, the largest instruction cost. With a smaller quantum the source loops forever as soon as a queued process has a too-expensive instruction next; with a quantum of 0 or less it loops forever once some queued process still has an instruction left (an empty ready list, or one whose processes are all finished, still drains). Smaller quanta on programs of only cheap instructions are not covered.
- Scheduler.RoundRobin: requires a quantum of at least 20, for the same reason.
- SchedulerProperties.FcfsCpuTime: assumes the ready records belong to distinct processes. When two records share a process, the later one finds it finished and is charged 0.
- SchedulerProperties.RrCpuTime: assumes distinct processes, as above.
- SchedulerProperties.FcfsTotalTime: assumes distinct processes, as above.
- SchedulerProperties.RoundRobinCharges: assumes distinct processes, as above.
- The process map holds each process by value. One `Process` object registered under two ids in the source's `processes` dict is shared, so the second record would find it already finished. The model treats it as two independent processes. Every caller in the repository (main.py, utils/parameter_sweep.py and the tests) builds one process per id. The per-process frames of `Scheduler.FcfsDispatch`, `Scheduler.FcfsProcsFrame` and `Scheduler.RrProcsFrame`, and the charging lemmas above, hold of the source only under that usage.
- Integer width is not an issue: Python integers are unbounded, and so are Dafny's.

=== FILE: instructions.dfy ===
/**
 * The fixed instruction cost table of models/process.py, together with the
 * whitespace trimming (Python's `str.strip()`) applied to an instruction
 * before it is looked up.
 */
module Instructions {

  /** The largest cost in the table; Round Robin needs a quantum at least this big. */
  const MaxCost: nat := 20

  /** Mnemonic to cost, in nanoseconds. */
  const CostTable: map<string, nat> :=
    map["LOAD" := 10, "STORE" := 20, "ADD" := 1, "SUB" := 1, "MUL" := 5, "DIV" := 5]

  /** The characters Python's `str.isspace()` accepts, which `str.strip()` removes. */
  predicate IsSpace(c: char) {
    || c == ' ' || c == '\t' || c == '\n' || c == '\r'
    || c == '\U{000B}' || c == '\U{000C}'
    || ('\U{001C}' <= c <= '\U{001F}')
    || c == '\U{0085}' || c == '\U{00A0}' || c == '\U{1680}'
    || ('\U{2000}' <= c <= '\U{200A}')
    || c == '\U{2028}' || c == '\U{2029}' || c == '\U{202F}' || c == '\U{205F}' || c == '\U{3000}'
  }

  predicate AllSpace(s: string) {
    forall k :: 0 <= k < |s| ==> IsSpace(s[k])
  }

  /** Empty, or starting and ending with a non-space: a string `strip()` leaves as it is. */
  predicate Trimmed(s: string) {
    s == [] || (!IsSpace(s[0]) && !IsSpace(s[|s| - 1]))
  }

  /** Index of the first non-space at or after `i`, or the end of `s`. */
  function SkipSpaces(s: string, i: nat): (j: nat)
    requires i <= |s|
    ensures i <= j <= |s|
    ensures forall k :: i <= k < j ==> IsSpace(s[k])
    ensures j == |s| || !IsSpace(s[j])
    decreases |s| - i
  {
    if i < |s| && IsSpace(s[i]) then SkipSpaces(s, i + 1) else i
  }

  /** Index just after the last non-space in `s[lo..j]`, or `lo` when there is none. */
  function SkipSpacesBack(s: string, lo: nat, j: nat): (e: nat)
    requires lo <= j <= |s|
    ensures lo <= e <= j
    ensures forall k :: e <= k < j ==> IsSpace(s[k])
    ensures e == lo || !IsSpace(s[e - 1])
  {
    if j > lo && IsSpace(s[j - 1]) then SkipSpacesBack(s, lo, j - 1) else j
  }

  /** Python's `str.strip()` with no argument: drops leading and trailing whitespace. */
  function Strip(s: string): (r: string)
    ensures Trimmed(r)
    ensures |r| <= |s|
  {
    var i := SkipSpaces(s, 0);
    s[i..SkipSpacesBack(s, i, |s|)]
  }

  /**
   * Table lookup with Python's `dict.get(key, 0)`. Every known mnemonic
   * costs at least 1, so a zero cost means exactly "unknown".
   */
  function Lookup(key: string): (c: nat)
    ensures c <= MaxCost
    ensures c == 0 <==> key !in CostTable
  {
    if key in CostTable then CostTable[key] else 0
  }

  /** The cost of one instruction: the table entry of its trimmed text, or 0 when unknown. */
  function Cost(instr: string): (c: nat)
    ensures c <= MaxCost
    ensures c == 0 <==> Strip(instr) !in CostTable
  {
    Lookup(Strip(instr))
  }

  /** Sum of the costs of a run of instructions. */
  function TotalCost(instrs: seq<string>): (t: nat)
    ensures t <= MaxCost * |instrs|
  {
    if instrs == [] then 0 else Cost(instrs[0]) + TotalCost(instrs[1..])
  }

  /**
   * Whitespace around a trimmed core is exactly what `strip()` removes.
   * Every string splits this way, so this pins `Strip` down completely.
   */
  lemma StripRemovesPadding(a: string, m: string, b: string)
    requires AllSpace(a) && AllSpace(b) && Trimmed(m)
    ensures Strip(a + m + b) == m
  {
    var x := a + m + b;
    var i := SkipSpaces(x, 0);
    if m == [] {
      assert AllSpace(x) by {
        forall k | 0 <= k < |x| ensures IsSpace(x[k]) {
          if k < |a| { assert x[k] == a[k]; } else { assert x[k] == b[k - |a|]; }
        }
      }
      assert i == |x|;
      assert x[i..SkipSpacesBack(x, i, |x|)] == [];
    } else {
      assert x[|a|] == m[0];
      assert i == |a|;
      var e := SkipSpacesBack(x, i, |x|);
      var end := |a| + |m|;
      assert x[end - 1] == m[|m| - 1];
      assert e == end;
      assert x[i..e] == m;
    }
  }

  /** A string with no surrounding whitespace is its own trimmed form. */
  lemma StripTrimmed(s: string)
    requires Trimmed(s)
    ensures Strip(s) == s
  {
    StripRemovesPadding([], s, []);
    assert [] + s + [] == s;
  }

  /** A mnemonic written exactly as in the table costs its table entry. */
  lemma CostOfMnemonic(m: string)
    requires m in CostTable
    ensures Cost(m) == CostTable[m]
  {
    assert m == "LOAD" || m == "STORE" || m == "ADD" || m == "SUB" || m == "MUL" || m == "DIV";
    StripTrimmed(m);
  }

  /** Surrounding whitespace never changes what an instruction costs. */
  lemma CostIgnoresPadding(pre: string, m: string, post: string)
    requires AllSpace(pre) && AllSpace(post) && Trimmed(m)
    ensures Cost(pre + m + post) == Lookup(m)
  {
    StripRemovesPadding(pre, m, post);
  }
}

=== FILE: operating_system.dfy ===
/**
 * The operating-system state of models/operating_system.py: the global
 * clock, the Round Robin quantum, the context-switch penalty, the
 * append-only process table and the ready list.
 *
 * The ready list holds the same records as the process table. It is kept
 * here as a list of slots (indices) into the table, so that a scheduler's
 * update of a record is seen through both.
 */
module OperatingSystem {

  import opened Wrappers
  import opened ProcessTableEntries

  const DefaultQuantum: int := 500
  const DefaultContextSwitchPenalty: int := 20

  datatype OsModel = OsModel(
    processTable: seq<Entry>,
    readyList: seq<nat>,
    currentTime: int,
    quantum: int,
    contextSwitchPenalty: int)

  /** Every ready-list slot names a table record, each record at most once, in admission order. */
  predicate WellFormed(m: OsModel) {
    && (forall k :: 0 <= k < |m.readyList| ==> m.readyList[k] < |m.processTable|)
    && (forall j, k :: 0 <= j < k < |m.readyList| ==> m.readyList[j] < m.readyList[k])
  }

  /** Before any scheduling: a record is on the ready list exactly when it was admitted as ready. */
  predicate ReadyListExact(m: OsModel) {
    forall i :: 0 <= i < |m.processTable| ==> (i in m.readyList <==> m.processTable[i].state == PrReady)
  }

  /** A fresh model: clock at zero, nothing admitted. */
  function Init(quantum: int := DefaultQuantum,
                contextSwitchPenalty: int := DefaultContextSwitchPenalty): (m: OsModel)
    ensures WellFormed(m) && ReadyListExact(m)
    ensures m.currentTime == 0 && m.processTable == [] && m.readyList == []
    ensures m.quantum == quantum && m.contextSwitchPenalty == contextSwitchPenalty
  {
    OsModel([], [], 0, quantum, contextSwitchPenalty)
  }

  /**
   * Admits a process: appends one fresh record to the table and, when it is
   * ready, puts that same record at the back of the ready list.
   */
  function AddProcess(m: OsModel, processId: int, state: ProcState, startTime: int): (m': OsModel)
    ensures |m'.processTable| == |m.processTable| + 1
    ensures m'.processTable[..|m.processTable|] == m.processTable
    ensures m'.processTable[|m.processTable|] == NewEntry(processId, state, startTime)
    ensures state == PrReady ==> m'.readyList == m.readyList + [|m.processTable|]
    ensures state != PrReady ==> m'.readyList == m.readyList
    ensures m'.currentTime == m.currentTime
    ensures m'.quantum == m.quantum && m'.contextSwitchPenalty == m.contextSwitchPenalty
    ensures WellFormed(m) ==> WellFormed(m')
    ensures WellFormed(m) && ReadyListExact(m) ==> ReadyListExact(m')
  {
    var slot := |m.processTable|;
    var table := m.processTable + [NewEntry(processId, state, startTime)];
    var ready := if state == PrReady then m.readyList + [slot] else m.readyList;
    OsModel(table, ready, m.currentTime, m.quantum, m.contextSwitchPenalty)
  }

  /** Charges one context switch; which processes are involved makes no difference. */
  function SwitchContext(m: OsModel, fromId: int, toId: int): (m': OsModel)
    ensures m'.currentTime == m.currentTime + m.contextSwitchPenalty
    ensures m' == m.(currentTime := m'.currentTime)
  {
    m.(currentTime := m.currentTime + m.contextSwitchPenalty)
  }

  /** Any two context switches from the same state advance the clock alike. */
  lemma SwitchContextIgnoresIds(m: OsModel, from1: int, to1: int, from2: int, to2: int)
    ensures SwitchContext(m, from1, to1) == SwitchContext(m, from2, to2)
  {
  }

  /** The ready record is the same record the table holds, with the defaults of a fresh one. */
  lemma AddReadyIsShared(m: OsModel, processId: int, startTime: int)
    ensures var m' := AddProcess(m, processId, PrReady, startTime);
            && |m'.readyList| == |m.readyList| + 1
            && m'.processTable[m'.readyList[|m.readyList|]] == Entry(processId, PrReady, startTime, None, 0)
  {
  }

  /** The examples of the operating-system tests. */
  lemma AdmissionExamples()
    ensures Init().quantum == 500 && Init().contextSwitchPenalty == 20
    ensures var m := AddProcess(Init(), 1, PrReady, 100);
            |m.processTable| == 1 && |m.readyList| == 1 && m.processTable[0] == Entry(1, PrReady, 100, None, 0)
    ensures var m := AddProcess(Init(), 2, PrCurr, 200);
            |m.processTable| == 1 && |m.readyList| == 0 && m.processTable[0].startTime == 200
  {
  }
}

=== FILE: process.dfy ===
/**
 * A process of models/process.py: an instruction list and a program
 * counter, advanced one instruction at a time.
 */
module Processes {

  import opened Instructions

  datatype Process = Process(id: int, instructions: seq<string>, pc: nat)

  /** The program counter never passes the end of the instruction list. */
  predicate PcInRange(p: Process) {
    p.pc <= |p.instructions|
  }

  /** A new process starts at its first instruction. */
  function NewProcess(id: int, instructions: seq<string>): (p: Process)
    ensures p.pc == 0 && PcInRange(p)
    ensures p.id == id && p.instructions == instructions
    ensures IsFinished(p) <==> instructions == []
    ensures RemainingCost(p) == TotalCost(instructions)
    ensures RemainingCost(p) <= MaxCost * |instructions|
  {
    Process(id, instructions, 0)
  }

  predicate IsFinished(p: Process) {
    p.pc >= |p.instructions|
  }

  /**
   * Finished means nothing is left to run: no instruction, no cost, and a
   * peek of 0. For a valid process the counter then sits exactly at the end.
   */
  lemma FinishedExactly(p: Process)
    ensures IsFinished(p) <==> RemainingCount(p) == 0
    ensures IsFinished(p) ==> RemainingCost(p) == 0 && PeekCost(p) == 0
    ensures PcInRange(p) ==> (IsFinished(p) <==> p.pc == |p.instructions|)
  {
  }

  /** Total cost of the instructions not yet executed. */
  function RemainingCost(p: Process): nat {
    if IsFinished(p) then 0 else TotalCost(p.instructions[p.pc..])
  }

  /** Number of instructions not yet executed. */
  function RemainingCount(p: Process): nat {
    if IsFinished(p) then 0 else |p.instructions| - p.pc
  }

  /**
   * Cost of the next instruction without executing it: zero exactly when
   * the process is finished or the next mnemonic is unknown.
   */
  function PeekCost(p: Process): (c: nat)
    ensures c <= MaxCost
    ensures c == 0 <==> (IsFinished(p) || Strip(p.instructions[p.pc]) !in CostTable)
  {
    if IsFinished(p) then 0 else Cost(p.instructions[p.pc])
  }

  datatype Executed = Executed(proc: Process, cost: nat)

  /**
   * Executes the next instruction: it costs what a peek reports, moves the
   * program counter on by one, and leaves a finished process alone.
   */
  function Execute(p: Process): (r: Executed)
    ensures r.cost == PeekCost(p)
    ensures r.proc.id == p.id && r.proc.instructions == p.instructions
    ensures IsFinished(p) ==> r.proc == p
    ensures !IsFinished(p) ==> r.proc.pc == p.pc + 1
    ensures PcInRange(p) ==> PcInRange(r.proc)
    ensures RemainingCost(p) == r.cost + RemainingCost(r.proc)
    ensures !IsFinished(p) ==> RemainingCount(r.proc) == RemainingCount(p) - 1
  {
    if IsFinished(p) then Executed(p, 0)
    else
      var cost := PeekCost(p);
      var next := p.(pc := p.pc + 1);
      assert p.instructions[p.pc..][1..] == next.instructions[next.pc..];
      Executed(next, cost)
  }

  /**
   * `n` executions in a row, with the sum of their costs. From a valid
   * process the counter stops at the end of the list, and the costs paid
   * are exactly the remaining cost that disappeared.
   */
  function ExecuteMany(p: Process, n: nat): (r: Executed)
    decreases n
    ensures PcInRange(p) ==> PcInRange(r.proc)
    ensures PcInRange(p) ==> r.proc.pc == if p.pc + n <= |p.instructions| then p.pc + n else |p.instructions|
    ensures r.cost + RemainingCost(r.proc) == RemainingCost(p)
    ensures r.proc.id == p.id && r.proc.instructions == p.instructions
  {
    if n == 0 then Executed(p, 0)
    else
      var first := Execute(p);
      var rest := ExecuteMany(first.proc, n - 1);
      Executed(rest.proc, first.cost + rest.cost)
  }

  /** Once finished, executing again returns 0 and changes nothing, however often. */
  lemma {:induction false} FinishedStaysFinished(p: Process, n: nat)
    requires IsFinished(p)
    ensures ExecuteMany(p, n) == Executed(p, 0)
  {
    if n > 0 {
      FinishedStaysFinished(Execute(p).proc, n - 1);
    }
  }

  /** Running as many steps as there are instructions left finishes the process and pays its whole remaining cost. */
  lemma RunningOutFinishes(p: Process)
    requires PcInRange(p)
    ensures IsFinished(ExecuteMany(p, RemainingCount(p)).proc)
    ensures ExecuteMany(p, RemainingCount(p)).cost == RemainingCost(p)
  {
  }

  /** Executing a mnemonic written exactly as in the table costs its table entry. */
  lemma ExecuteKnown(p: Process)
    requires !IsFinished(p) && p.instructions[p.pc] in CostTable
    ensures Execute(p) == Executed(p.(pc := p.pc + 1), CostTable[p.instructions[p.pc]])
  {
    CostOfMnemonic(p.instructions[p.pc]);
  }

  /** The example run of the process tests: LOAD, ADD, STORE cost 10, 1, 20, then 0 once finished. */
  lemma LoadAddStoreRun(prog: seq<string>)
    requires |prog| == 3 && prog[0] == "LOAD" && prog[1] == "ADD" && prog[2] == "STORE"
    ensures Execute(NewProcess(1, prog)) == Executed(Process(1, prog, 1), 10)
    ensures Execute(Process(1, prog, 1)) == Executed(Process(1, prog, 2), 1)
    ensures Execute(Process(1, prog, 2)) == Executed(Process(1, prog, 3), 20)
    ensures IsFinished(Process(1, prog, 3))
    ensures Execute(Process(1, prog, 3)) == Executed(Process(1, prog, 3), 0)
  {
    ExecuteKnown(NewProcess(1, prog));
    ExecuteKnown(Process(1, prog, 1));
    ExecuteKnown(Process(1, prog, 2));
  }

  /** An unknown mnemonic such as FOO costs nothing. */
  lemma UnknownMnemonicIsFree(prog: seq<string>)
    requires |prog| == 1 && prog[0] == "FOO"
    ensures PeekCost(NewProcess(1, prog)) == 0
  {
    StripTrimmed(prog[0]);
    assert prog[0] !in CostTable;
    assert Cost(prog[0]) == 0;
  }
}

=== FILE: process_table_entry.dfy ===
/**
 * The per-process scheduling record of models/process_table_entry.py, and
 * the turnaround and waiting metrics its documentation defines.
 */
module ProcessTableEntries {

  import opened Wrappers

  /** The lifecycle states the system uses: admitted and waiting, running, finished. */
  datatype ProcState = PrReady | PrCurr | PrDone

  datatype Entry = Entry(
    processId: int,
    state: ProcState,
    startTime: int,
    endTime: Option<int>,
    cpuTime: int)

  /** A new record; the end time is unset and no CPU time is used unless the caller says otherwise. */
  function NewEntry(processId: int, state: ProcState, startTime: int,
                    endTime: Option<int> := None, cpuTime: int := 0): (e: Entry)
    ensures e.processId == processId && e.state == state && e.startTime == startTime
    ensures e.endTime == endTime && e.cpuTime == cpuTime
  {
    Entry(processId, state, startTime, endTime, cpuTime)
  }

  /** Time from creation to completion. */
  function Turnaround(e: Entry): (t: int)
    requires e.endTime.Some?
    ensures e.startTime + t == e.endTime.value
  {
    e.endTime.value - e.startTime
  }

  /** Time spent admitted but not executing: turnaround time less CPU time. */
  function Waiting(e: Entry): (w: int)
    requires e.endTime.Some?
    ensures w + e.cpuTime == Turnaround(e)
    ensures w >= 0 <==> e.endTime.value - e.startTime >= e.cpuTime
  {
    Turnaround(e) - e.cpuTime
  }

  /** The defaults of a fresh record, as the entry tests construct one. */
  lemma FreshEntryDefaults(id: int, state: ProcState, start: int)
    ensures NewEntry(id, state, start).endTime == None
    ensures NewEntry(id, state, start).cpuTime == 0
  {
  }

  /** The metric examples of the entry tests: turnaround 100 and waiting 150. */
  lemma MetricExamples()
    ensures Turnaround(NewEntry(3, PrCurr, 100, Some(200), 60)) == 100
    ensures Waiting(NewEntry(4, PrCurr, 100, Some(300), 50)) == 150
  {
  }
}

=== FILE: scenarios.dfy ===
/**
 * Concrete runs over the model. First the runs of the scheduler tests
 * (tests/test_scheduler.py): one or two processes admitted ready at time 0
 * with no context-switch penalty, under FCFS with the default quantum or
 * under Round Robin with a quantum of 200. Then two single-process Round
 * Robin runs with a quantum of 20 and a penalty of 5 that are preempted.
 */
module Scenarios {

  import opened Wrappers
  import opened Instructions
  import opened Processes
  import opened ProcessTableEntries
  import opened OperatingSystem
  import opened Scheduler
  import opened SchedulerProperties

  /** Processes 1 and 2 admitted ready at time 0, in that order. */
  function TwoReady(quantum: int, penalty: int, prog1: seq<string>, prog2: seq<string>): (s: Machine)
    ensures s.os.processTable == [Entry(1, PrReady, 0, None, 0), Entry(2, PrReady, 0, None, 0)]
    ensures s.os.readyList == [0, 1]
    ensures s.os.currentTime == 0 && s.os.quantum == quantum && s.os.contextSwitchPenalty == penalty
    ensures WellFormed(s.os) && ReadyListExact(s.os)
    ensures s.procs == map[1 := NewProcess(1, prog1), 2 := NewProcess(2, prog2)]
  {
    var os := AddProcess(AddProcess(Init(quantum, penalty), 1, PrReady, 0), 2, PrReady, 0);
    Machine(os, map[1 := NewProcess(1, prog1), 2 := NewProcess(2, prog2)])
  }

  /** Process 1 admitted ready at time 0. */
  function OneReady(quantum: int, penalty: int, prog: seq<string>): (s: Machine)
    ensures s.os.processTable == [Entry(1, PrReady, 0, None, 0)]
    ensures s.os.readyList == [0]
    ensures s.os.currentTime == 0 && s.os.quantum == quantum && s.os.contextSwitchPenalty == penalty
    ensures WellFormed(s.os) && ReadyListExact(s.os)
    ensures s.procs == map[1 := NewProcess(1, prog)]
  {
    var os := AddProcess(Init(quantum, penalty), 1, PrReady, 0);
    Machine(os, map[1 := NewProcess(1, prog)])
  }

  /** LOAD, ADD, STORE cost 31 in all. */
  lemma LoadAddStoreCost(id: int, prog: seq<string>)
    requires |prog| == 3 && prog[0] == "LOAD" && prog[1] == "ADD" && prog[2] == "STORE"
    ensures RemainingCost(NewProcess(id, prog)) == 31
  {
    ExecuteKnown(Process(id, prog, 0));
    ExecuteKnown(Process(id, prog, 1));
    ExecuteKnown(Process(id, prog, 2));
  }

  /** LOAD, MUL, DIV cost 20 in all. */
  lemma LoadMulDivCost(id: int, prog: seq<string>)
    requires |prog| == 3 && prog[0] == "LOAD" && prog[1] == "MUL" && prog[2] == "DIV"
    ensures RemainingCost(NewProcess(id, prog)) == 20
  {
    ExecuteKnown(Process(id, prog, 0));
    ExecuteKnown(Process(id, prog, 1));
    ExecuteKnown(Process(id, prog, 2));
  }

  /** ADD, SUB, ADD, STORE cost 23 in all. */
  lemma AddSubAddStoreCost(id: int, prog: seq<string>)
    requires |prog| == 4 && prog[0] == "ADD" && prog[1] == "SUB" && prog[2] == "ADD" && prog[3] == "STORE"
    ensures RemainingCost(NewProcess(id, prog)) == 23
  {
    ExecuteKnown(Process(id, prog, 0));
    ExecuteKnown(Process(id, prog, 1));
    ExecuteKnown(Process(id, prog, 2));
    ExecuteKnown(Process(id, prog, 3));
  }

  /** Two ready processes with distinct ids, as the tests admit them. */
  lemma TwoReadyDistinct(quantum: int, penalty: int, prog1: seq<string>, prog2: seq<string>)
    ensures var s := TwoReady(quantum, penalty, prog1, prog2);
            Schedulable(s, s.os.readyList) && DistinctIds(s, s.os.readyList)
            && Proc(s, 0) == NewProcess(1, prog1) && Proc(s, 1) == NewProcess(2, prog2)
  {
  }

  /** The FCFS test: costs 31 and 20 run back to back, so the clock ends at 51. */
  lemma FcfsTestRun(prog1: seq<string>, prog2: seq<string>)
    requires |prog1| == 3 && prog1[0] == "LOAD" && prog1[1] == "ADD" && prog1[2] == "STORE"
    requires |prog2| == 3 && prog2[0] == "LOAD" && prog2[1] == "MUL" && prog2[2] == "DIV"
    ensures var r := Fcfs(TwoReady(DefaultQuantum, 0, prog1, prog2));
            && r.os.currentTime == 51
            && r.os.processTable[0].cpuTime == 31 && r.os.processTable[0].state == PrDone
            && r.os.processTable[0].endTime.Some?
            && r.os.processTable[1].cpuTime == 20 && r.os.processTable[1].state == PrDone
            && r.os.processTable[1].endTime.Some?
  {
    var s := TwoReady(DefaultQuantum, 0, prog1, prog2);
    TwoReadyDistinct(DefaultQuantum, 0, prog1, prog2);
    LoadAddStoreCost(1, prog1);
    LoadMulDivCost(2, prog2);
    assert Work(s, [1]) == 20;
    assert Work(s, [0, 1]) == 51;
    FcfsTotalTime(s);
    FcfsCpuTime(s, [0, 1], true);
  }

  /**
   * The multiple-process Round Robin test: with a quantum of 200 neither
   * process is preempted, so process 1 ends at 31 and process 2 at 54.
   */
  lemma RoundRobinTestRun(prog1: seq<string>, prog2: seq<string>)
    requires |prog1| == 3 && prog1[0] == "LOAD" && prog1[1] == "ADD" && prog1[2] == "STORE"
    requires |prog2| == 4 && prog2[0] == "ADD" && prog2[1] == "SUB" && prog2[2] == "ADD" && prog2[3] == "STORE"
    ensures var r := RoundRobin(TwoReady(200, 0, prog1, prog2));
            && r.os.currentTime == 54
            && r.os.processTable[0] == Entry(1, PrDone, 0, Some(31), 31)
            && r.os.processTable[1] == Entry(2, PrDone, 0, Some(54), 23)
  {
    var s := TwoReady(200, 0, prog1, prog2);
    TwoReadyDistinct(200, 0, prog1, prog2);
    LoadAddStoreCost(1, prog1);
    AddSubAddStoreCost(2, prog2);
    RoundRobinMatchesFcfs(s);
    var q := s.os.readyList;
    var s1 := FcfsDispatch(s, 0, true);
    FcfsHead(s, q, true);
    assert s1.os.processTable[0] == Entry(1, PrDone, 0, Some(31), 31);
    var s2 := FcfsDispatch(s1, 1, false);
    FcfsHead(s1, q[1..], false);
    assert Proc(s1, 1) == Proc(s, 1);
    assert s1.os.currentTime == 31 && s1.os.contextSwitchPenalty == 0;
    assert s1.os.processTable[1] == Entry(2, PrReady, 0, None, 0);
    assert s2.os.currentTime == 54;
    assert s2.os.processTable[1] == Entry(2, PrDone, 0, Some(54), 23);
    assert FcfsLoop(s2, [], false) == s2;
  }

  /** The single-process Round Robin test: one slice runs the whole program, ending at 31. */
  lemma RoundRobinSingleRun(prog: seq<string>)
    requires |prog| == 3 && prog[0] == "LOAD" && prog[1] == "ADD" && prog[2] == "STORE"
    ensures var r := RoundRobin(OneReady(200, 0, prog));
            && r.os.currentTime == 31
            && r.os.processTable[0] == Entry(1, PrDone, 0, Some(31), 31)
  {
    var s := OneReady(200, 0, prog);
    LoadAddStoreCost(1, prog);
    assert Proc(s, 0) == NewProcess(1, prog);
    RoundRobinMatchesFcfs(s);
    var s1 := FcfsDispatch(s, 0, true);
    FcfsHead(s, s.os.readyList, true);
    assert FcfsLoop(s1, [], false) == s1;
  }

  /** Two Round Robin dispatches of the only record, the first one preempting it, make up the whole run. */
  lemma RrTwoSlices(s: Machine, m1: Machine, m2: Machine)
    requires Schedulable(s, [0]) && s.os.quantum >= MaxCost
    requires RrDispatch(s, [0], true) == RrState(m1, [0])
    requires RrDispatch(m1, [0], false) == RrState(m2, [])
    ensures RrLoop(s, [0], true) == m2
  {
    RrHead(s, [0], true);
    RrHead(m1, [0], false);
    assert RrLoop(m2, [], false) == m2;
  }

  /** One ready process at time 20 with 10 of CPU time, its counter at the second instruction. */
  function AfterFirstSlice(prog: seq<string>, cpuTime: int, clock: int): Machine {
    Machine(OsModel([Entry(1, PrReady, 0, None, cpuTime)], [0], clock, 20, 5), map[1 := Process(1, prog, 1)])
  }

  /** The run of one process at its end. */
  function AfterLastSlice(prog: seq<string>, cpuTime: int, clock: int): Machine {
    Machine(OsModel([Entry(1, PrDone, 0, Some(clock), cpuTime)], [0], clock, 20, 5), map[1 := Process(1, prog, 2)])
  }

  /** LOAD fits the quantum of 20, STORE does not fit the 10 left. */
  lemma LoadStoreFirstSlice(prog: seq<string>)
    requires |prog| == 2 && prog[0] == "LOAD" && prog[1] == "STORE"
    ensures RunSlice(NewProcess(1, prog), 0, 0, 20) == Slice(Process(1, prog, 1), 10, 10, 10)
  {
    var p1 := Process(1, prog, 1);
    ExecuteKnown(NewProcess(1, prog));
    ExecuteKnown(p1);
    assert RunSlice(p1, 10, 10, 10) == Slice(p1, 10, 10, 10);
  }

  lemma PreemptFirstSlice(prog: seq<string>)
    requires |prog| == 2 && prog[0] == "LOAD" && prog[1] == "STORE"
    ensures RrDispatch(OneReady(20, 5, prog), [0], true) == RrState(AfterFirstSlice(prog, 10, 20), [0])
  {
    LoadStoreFirstSlice(prog);
    assert map[1 := NewProcess(1, prog)][1 := Process(1, prog, 1)] == map[1 := Process(1, prog, 1)];
  }

  /** STORE alone uses the whole second quantum and finishes the process. */
  lemma LoadStoreSecondSlice(prog: seq<string>)
    requires |prog| == 2 && prog[0] == "LOAD" && prog[1] == "STORE"
    ensures RunSlice(Process(1, prog, 1), 10, 25, 20) == Slice(Process(1, prog, 2), 30, 45, 0)
  {
    var p2 := Process(1, prog, 2);
    ExecuteKnown(Process(1, prog, 1));
    assert RunSlice(p2, 30, 45, 0) == Slice(p2, 30, 45, 0);
  }

  lemma PreemptSecondSlice(prog: seq<string>)
    requires |prog| == 2 && prog[0] == "LOAD" && prog[1] == "STORE"
    ensures RrDispatch(AfterFirstSlice(prog, 10, 20), [0], false) == RrState(AfterLastSlice(prog, 30, 45), [])
  {
    LoadStoreSecondSlice(prog);
    assert map[1 := Process(1, prog, 1)][1 := Process(1, prog, 2)] == map[1 := Process(1, prog, 2)];
  }

  /**
   * A preempted slice. With a quantum of 20 and a penalty of 5, LOAD then
   * STORE: the first slice runs LOAD (10), cannot fit STORE (20) in the 10
   * left, and is charged the idle 10 as well, so it ends at 20; the second
   * slice pays the switch and STORE, ending at 45 with 30 of CPU time and
   * 15 of waiting.
   */
  lemma RoundRobinPreemptRun(prog: seq<string>)
    requires |prog| == 2 && prog[0] == "LOAD" && prog[1] == "STORE"
    ensures var r := RoundRobin(OneReady(20, 5, prog));
            && r.os.currentTime == 45
            && r.os.processTable[0] == Entry(1, PrDone, 0, Some(45), 30)
            && Waiting(r.os.processTable[0]) == 15
  {
    PreemptFirstSlice(prog);
    PreemptSecondSlice(prog);
    RrTwoSlices(OneReady(20, 5, prog), AfterFirstSlice(prog, 10, 20), AfterLastSlice(prog, 30, 45));
  }

  /** STORE uses the whole quantum, leaving none to look at FOO with. */
  lemma StoreFooFirstSlice(prog: seq<string>)
    requires |prog| == 2 && prog[0] == "STORE" && prog[1] == "FOO"
    ensures RunSlice(NewProcess(1, prog), 0, 0, 20) == Slice(Process(1, prog, 1), 20, 20, 0)
  {
    var p1 := Process(1, prog, 1);
    ExecuteKnown(NewProcess(1, prog));
    assert RunSlice(p1, 20, 20, 0) == Slice(p1, 20, 20, 0);
  }

  lemma ExactFirstSlice(prog: seq<string>)
    requires |prog| == 2 && prog[0] == "STORE" && prog[1] == "FOO"
    ensures RrDispatch(OneReady(20, 5, prog), [0], true) == RrState(AfterFirstSlice(prog, 20, 20), [0])
  {
    StoreFooFirstSlice(prog);
    assert map[1 := NewProcess(1, prog)][1 := Process(1, prog, 1)] == map[1 := Process(1, prog, 1)];
  }

  /** FOO costs nothing, so the second slice runs it and finishes without moving the clock. */
  lemma StoreFooSecondSlice(prog: seq<string>)
    requires |prog| == 2 && prog[0] == "STORE" && prog[1] == "FOO"
    ensures RunSlice(Process(1, prog, 1), 20, 25, 20) == Slice(Process(1, prog, 2), 20, 25, 20)
  {
    var p2 := Process(1, prog, 2);
    StripTrimmed(prog[1]);
    assert prog[1] !in CostTable;
    assert Execute(Process(1, prog, 1)) == Executed(p2, 0);
    assert RunSlice(p2, 20, 25, 20) == Slice(p2, 20, 25, 20);
  }

  lemma ExactSecondSlice(prog: seq<string>)
    requires |prog| == 2 && prog[0] == "STORE" && prog[1] == "FOO"
    ensures RrDispatch(AfterFirstSlice(prog, 20, 20), [0], false) == RrState(AfterLastSlice(prog, 20, 25), [])
  {
    StoreFooSecondSlice(prog);
    assert map[1 := Process(1, prog, 1)][1 := Process(1, prog, 2)] == map[1 := Process(1, prog, 2)];
  }

  /**
   * Why Round Robin matches FCFS only when a process needs strictly less
   * than a quantum: STORE then the unknown FOO costs exactly 20, the whole
   * quantum. The slice runs STORE and has nothing left to look at FOO with,
   * so the process is preempted with a free instruction still pending and
   * pays a second context switch: Round Robin ends at 25, FCFS at 20.
   */
  lemma ExactQuantumCostsASwitch(prog: seq<string>)
    requires |prog| == 2 && prog[0] == "STORE" && prog[1] == "FOO"
    ensures RemainingCost(NewProcess(1, prog)) == 20
    ensures RoundRobin(OneReady(20, 5, prog)).os.currentTime == 25
    ensures Fcfs(OneReady(20, 5, prog)).os.currentTime == 20
  {
    ExactFirstSlice(prog);
    ExactSecondSlice(prog);
    RrTwoSlices(OneReady(20, 5, prog), AfterFirstSlice(prog, 20, 20), AfterLastSlice(prog, 20, 25));
    StoreFooFcfs(prog);
  }

  /** FCFS runs STORE then FOO in one go, ending at 20. */
  lemma StoreFooFcfs(prog: seq<string>)
    requires |prog| == 2 && prog[0] == "STORE" && prog[1] == "FOO"
    ensures RemainingCost(NewProcess(1, prog)) == 20
    ensures Fcfs(OneReady(20, 5, prog)).os.currentTime == 20
  {
    var s := OneReady(20, 5, prog);
    ExecuteKnown(NewProcess(1, prog));
    assert RemainingCost(Process(1, prog, 1)) == 0 by {
      StripTrimmed(prog[1]);
      assert prog[1] !in CostTable;
    }
    assert Proc(s, 0) == NewProcess(1, prog);
    var f1 := FcfsDispatch(s, 0, true);
    assert f1.os.currentTime == 20;
    FcfsHead(s, [0], true);
    assert FcfsLoop(f1, [], false) == f1;
  }
}

=== FILE: scheduler.dfy ===
/**
 * The two schedulers of models/scheduler.py. Each takes the OS model and
 * the map from process id to process, and runs every ready record to
 * completion, moving the clock and filling in the records.
 *
 * Both are written as a loop over a queue of table slots plus a flag for
 * "nothing has been dispatched yet": FCFS consumes the ready list in order;
 * Round Robin starts from a copy of it and re-queues preempted records at
 * the back.
 */
module Scheduler {

  import opened Wrappers
  import opened Instructions
  import opened Processes
  import opened ProcessTableEntries
  import opened OperatingSystem

  /** Everything a scheduler changes: the OS model and the processes it drives. */
  datatype Machine = Machine(os: OsModel, procs: map<int, Process>)

  /** `slot` names a table record whose process id is in the map. */
  predicate Dispatchable(s: Machine, slot: nat) {
    slot < |s.os.processTable| && s.os.processTable[slot].processId in s.procs
  }

  /** Every slot of `queue` is dispatchable. */
  predicate Schedulable(s: Machine, queue: seq<nat>) {
    forall k :: 0 <= k < |queue| ==> Dispatchable(s, queue[k])
  }

  /**
   * What no scheduler step changes: the size of the table, each record's
   * id and start time, the ready list, the configuration, the set of known
   * processes and their programs.
   */
  predicate SameShape(s: Machine, s': Machine) {
    && |s'.os.processTable| == |s.os.processTable|
    && (forall i :: 0 <= i < |s.os.processTable| ==>
          s'.os.processTable[i].processId == s.os.processTable[i].processId
          && s'.os.processTable[i].startTime == s.os.processTable[i].startTime)
    && s'.os.readyList == s.os.readyList
    && s'.os.quantum == s.os.quantum
    && s'.os.contextSwitchPenalty == s.os.contextSwitchPenalty
    && s'.procs.Keys == s.procs.Keys
    && (forall id :: id in s.procs ==>
          s'.procs[id].id == s.procs[id].id
          && s'.procs[id].instructions == s.procs[id].instructions
          && s.procs[id].pc <= s'.procs[id].pc)
  }

  lemma SameShapeKeepsSchedulable(s: Machine, s': Machine, queue: seq<nat>)
    requires SameShape(s, s') && Schedulable(s, queue)
    ensures Schedulable(s', queue)
  {
  }

  lemma SameShapeTransitive(s: Machine, s1: Machine, s2: Machine)
    requires SameShape(s, s1) && SameShape(s1, s2)
    ensures SameShape(s, s2)
  {
  }

  /**
   * The machine after one dispatch: the record in `slot` replaced, its
   * process replaced, the clock set. Ids, start times and programs stay.
   */
  function Commit(s: Machine, slot: nat, e': Entry, p': Process, clock: int): (r: Machine)
    requires Dispatchable(s, slot)
    requires e'.processId == s.os.processTable[slot].processId
    requires e'.startTime == s.os.processTable[slot].startTime
    requires var p := s.procs[e'.processId];
             p'.id == p.id && p'.instructions == p.instructions && p.pc <= p'.pc
    ensures SameShape(s, r)
    ensures r.os == s.os.(processTable := s.os.processTable[slot := e'], currentTime := clock)
    ensures r.procs == s.procs[e'.processId := p']
  {
    Machine(s.os.(processTable := s.os.processTable[slot := e'], currentTime := clock), s.procs[e'.processId := p'])
  }

  /** The process behind the record in `slot`. */
  function Proc(s: Machine, slot: nat): Process
    requires Dispatchable(s, slot)
  {
    s.procs[s.os.processTable[slot].processId]
  }

  /** CPU time the record in `slot` gained between `s` and `s'`. */
  function Used(s: Machine, s': Machine, slot: nat): int
    requires Dispatchable(s, slot) && SameShape(s, s')
  {
    s'.os.processTable[slot].cpuTime - s.os.processTable[slot].cpuTime
  }

  /** The clock at which a dispatched process starts: a context switch is charged on every dispatch but the first. */
  function DispatchTime(s: Machine, first: bool): int {
    if first then s.os.currentTime else s.os.currentTime + s.os.contextSwitchPenalty
  }

  // ---------------------------------------------------------------------
  // First come, first served
  // ---------------------------------------------------------------------

  datatype Run = Run(proc: Process, cpuTime: int, clock: int)

  /**
   * The FCFS inner loop: executes instructions until the process is
   * finished, adding each cost to the record's CPU time and to the clock.
   * Both grow by exactly the cost of what was left to run.
   */
  function RunToCompletion(p: Process, cpuTime: int, clock: int): (r: Run)
    ensures IsFinished(r.proc)
    ensures r.proc == if IsFinished(p) then p else p.(pc := |p.instructions|)
    ensures r.cpuTime == cpuTime + RemainingCost(p)
    ensures r.clock == clock + RemainingCost(p)
    decreases RemainingCount(p)
  {
    if IsFinished(p) then Run(p, cpuTime, clock)
    else
      var step := Execute(p);
      RunToCompletion(step.proc, cpuTime + step.cost, clock + step.cost)
  }

  /**
   * The FCFS inner loop is the process's remaining instructions executed
   * one at a time, each cost charged to the CPU time and the clock.
   */
  lemma RunToCompletionExecutesAll(p: Process, cpuTime: int, clock: int)
    requires PcInRange(p)
    ensures var all := ExecuteMany(p, RemainingCount(p));
            RunToCompletion(p, cpuTime, clock) == Run(all.proc, cpuTime + all.cost, clock + all.cost)
  {
    RunningOutFinishes(p);
  }

  /**
   * One pass of the FCFS outer loop: charges the context switch unless this
   * is the first record, runs its process to completion, and marks the
   * record done at the time it finished. Nothing else in the table moves.
   */
  function FcfsDispatch(s: Machine, slot: nat, first: bool): (s': Machine)
    requires Dispatchable(s, slot)
    ensures SameShape(s, s')
    ensures var e := s.os.processTable[slot];
            var p := s.procs[e.processId];
            && s'.os.currentTime == DispatchTime(s, first) + RemainingCost(p)
            && s'.os.processTable == s.os.processTable[slot := e.(
                 cpuTime := e.cpuTime + RemainingCost(p),
                 endTime := Some(s'.os.currentTime),
                 state := PrDone)]
            && IsFinished(s'.procs[e.processId])
            && s'.procs == s.procs[e.processId := s'.procs[e.processId]]
            && (IsFinished(p) ==> s'.procs == s.procs)
  {
    var e := s.os.processTable[slot];
    var run := RunToCompletion(s.procs[e.processId], e.cpuTime, DispatchTime(s, first));
    var e' := e.(cpuTime := run.cpuTime, endTime := Some(run.clock), state := PrDone);
    Commit(s, slot, e', run.proc, run.clock)
  }

  /** No slot of `queue` belongs to process `id`. */
  predicate NotQueued(s: Machine, queue: seq<nat>, id: int)
    requires Schedulable(s, queue)
  {
    forall k :: 0 <= k < |queue| ==> s.os.processTable[queue[k]].processId != id
  }

  /**
   * FCFS over the records in `pending`, in order. Records outside
   * `pending` are untouched, CPU times never go down, and with a
   * non-negative penalty neither does the clock. (Processes are covered by
   * `FcfsProcsFrame`, completion by `FcfsCompletes`.)
   */
  function FcfsLoop(s: Machine, pending: seq<nat>, first: bool): (r: Machine)
    requires Schedulable(s, pending)
    ensures SameShape(s, r)
    ensures forall i :: 0 <= i < |s.os.processTable| && i !in pending ==>
              r.os.processTable[i] == s.os.processTable[i]
    ensures forall i :: 0 <= i < |s.os.processTable| ==>
              r.os.processTable[i].cpuTime >= s.os.processTable[i].cpuTime
    ensures s.os.contextSwitchPenalty >= 0 ==> r.os.currentTime >= s.os.currentTime
    decreases |pending|
  {
    if pending == [] then s
    else
      var s1 := FcfsDispatch(s, pending[0], first);
      SameShapeKeepsSchedulable(s, s1, pending[1..]);
      var r := FcfsLoop(s1, pending[1..], false);
      SameShapeTransitive(s, s1, r);
      r
  }

  /** FCFS touches only the processes of pending records, and leaves finished ones alone. */
  lemma {:induction false} FcfsProcsFrame(s: Machine, pending: seq<nat>, first: bool)
    requires Schedulable(s, pending)
    ensures forall id :: id in s.procs && (NotQueued(s, pending, id) || IsFinished(s.procs[id])) ==>
              FcfsLoop(s, pending, first).procs[id] == s.procs[id]
    decreases |pending|
  {
    if pending != [] {
      var s1 := FcfsDispatch(s, pending[0], first);
      SameShapeKeepsSchedulable(s, s1, pending[1..]);
      FcfsProcsFrame(s1, pending[1..], false);
      forall id | id in s.procs && (NotQueued(s, pending, id) || IsFinished(s.procs[id]))
        ensures s1.procs[id] == s.procs[id]
        ensures NotQueued(s1, pending[1..], id) || IsFinished(s1.procs[id])
      {
        if NotQueued(s, pending, id) {
          assert s.os.processTable[pending[0]].processId != id;
          forall k | 0 <= k < |pending[1..]|
            ensures s1.os.processTable[pending[1..][k]].processId != id
          {
            assert pending[1..][k] == pending[k + 1];
          }
        }
      }
    }
  }

  /** The record in `slot` is done, has an end time, and its process is finished. */
  predicate Completed(s: Machine, r: Machine, slot: nat)
    requires Dispatchable(s, slot) && SameShape(s, r)
  {
    && r.os.processTable[slot].state == PrDone
    && r.os.processTable[slot].endTime.Some?
    && IsFinished(r.procs[s.os.processTable[slot].processId])
  }

  /** FCFS leaves every pending record done and its process finished. */
  lemma {:induction false} FcfsCompletes(s: Machine, pending: seq<nat>, first: bool)
    requires Schedulable(s, pending)
    ensures forall k :: 0 <= k < |pending| ==> Completed(s, FcfsLoop(s, pending, first), pending[k])
    decreases |pending|
  {
    if pending != [] {
      var s1 := FcfsDispatch(s, pending[0], first);
      SameShapeKeepsSchedulable(s, s1, pending[1..]);
      var r := FcfsLoop(s1, pending[1..], false);
      assert r == FcfsLoop(s, pending, first);
      FcfsCompletes(s1, pending[1..], false);
      FcfsProcsFrame(s1, pending[1..], false);
      forall k | 0 <= k < |pending|
        ensures Completed(s, r, pending[k])
      {
        if k > 0 {
          assert pending[k] == pending[1..][k - 1];
        } else if pending[0] in pending[1..] {
          var j :| 0 <= j < |pending[1..]| && pending[1..][j] == pending[0];
        }
      }
    }
  }

  /** `fcfs_scheduler`: run the ready list in admission order. */
  function Fcfs(s: Machine): (r: Machine)
    requires Schedulable(s, s.os.readyList)
    ensures SameShape(s, r)
    ensures forall k :: 0 <= k < |s.os.readyList| ==> Completed(s, r, s.os.readyList[k])
  {
    FcfsCompletes(s, s.os.readyList, true);
    FcfsLoop(s, s.os.readyList, true)
  }

  // ---------------------------------------------------------------------
  // Round Robin
  // ---------------------------------------------------------------------

  datatype Slice = Slice(proc: Process, cpuTime: int, clock: int, quantumRemaining: int)

  /**
   * The Round Robin inner loop: while quantum is left and the process is
   * not finished, executes the next instruction if its whole cost fits in
   * what is left, and stops otherwise; an instruction is never split.
   * CPU time, clock and quantum move by the same amount, which is the cost
   * of the instructions executed.
   */
  function RunSlice(p: Process, cpuTime: int, clock: int, quantumRemaining: int): (r: Slice)
    ensures r.cpuTime - cpuTime == r.clock - clock == quantumRemaining - r.quantumRemaining
    ensures r.cpuTime - cpuTime == RemainingCost(p) - RemainingCost(r.proc)
    ensures r.quantumRemaining <= quantumRemaining
    ensures quantumRemaining >= 0 ==> r.quantumRemaining >= 0
    ensures r.proc.id == p.id && r.proc.instructions == p.instructions && p.pc <= r.proc.pc
    ensures IsFinished(p) ==> r == Slice(p, cpuTime, clock, quantumRemaining)
    ensures !IsFinished(r.proc) ==> r.quantumRemaining <= 0 || PeekCost(r.proc) > r.quantumRemaining
    ensures quantumRemaining >= MaxCost && !IsFinished(p) ==> RemainingCount(r.proc) < RemainingCount(p)
    ensures RemainingCost(p) < quantumRemaining ==>
              r.proc == (if IsFinished(p) then p else p.(pc := |p.instructions|))
    decreases RemainingCount(p)
  {
    if quantumRemaining > 0 && !IsFinished(p) then
      if PeekCost(p) <= quantumRemaining then
        var step := Execute(p);
        RunSlice(step.proc, cpuTime + step.cost, clock + step.cost, quantumRemaining - step.cost)
      else
        Slice(p, cpuTime, clock, quantumRemaining)
    else
      Slice(p, cpuTime, clock, quantumRemaining)
  }

  datatype RrState = RrState(machine: Machine, queue: seq<nat>)

  /**
   * One pass of the Round Robin outer loop on the record at the head of the
   * queue: charges the context switch unless this is the first dispatch,
   * runs one slice, and then either marks the record done at the current
   * time (its process finished) or charges the unused quantum as idle time
   * and puts the record at the back of the queue, state and end time as
   * they were.
   */
  function RrDispatch(s: Machine, queue: seq<nat>, first: bool): (r: RrState)
    requires queue != [] && Dispatchable(s, queue[0])
    requires s.os.quantum >= 0
    ensures SameShape(s, r.machine)
    ensures r.machine.os.processTable == s.os.processTable[queue[0] := r.machine.os.processTable[queue[0]]]
    ensures r.machine.procs == s.procs[s.os.processTable[queue[0]].processId := r.machine.procs[s.os.processTable[queue[0]].processId]]
    ensures 0 <= Used(s, r.machine, queue[0]) <= s.os.quantum
    ensures Used(s, r.machine, queue[0]) == RemainingCost(Proc(s, queue[0])) - RemainingCost(Proc(r.machine, queue[0]))
    ensures IsFinished(Proc(s, queue[0])) ==> Proc(r.machine, queue[0]) == Proc(s, queue[0])
    ensures s.os.quantum >= MaxCost && !IsFinished(Proc(s, queue[0])) ==>
              RemainingCount(Proc(r.machine, queue[0])) < RemainingCount(Proc(s, queue[0]))
    ensures IsFinished(Proc(r.machine, queue[0])) ==>
              && r.queue == queue[1..]
              && r.machine.os.currentTime == DispatchTime(s, first) + Used(s, r.machine, queue[0])
              && r.machine.os.processTable[queue[0]] == s.os.processTable[queue[0]].(
                   cpuTime := r.machine.os.processTable[queue[0]].cpuTime,
                   endTime := Some(r.machine.os.currentTime),
                   state := PrDone)
    ensures !IsFinished(Proc(r.machine, queue[0])) ==>
              && r.queue == queue[1..] + [queue[0]]
              && r.machine.os.currentTime == DispatchTime(s, first) + s.os.quantum
              && r.machine.os.processTable[queue[0]] == s.os.processTable[queue[0]].(
                   cpuTime := r.machine.os.processTable[queue[0]].cpuTime)
  {
    var slot := queue[0];
    var e := s.os.processTable[slot];
    var slice := RunSlice(s.procs[e.processId], e.cpuTime, DispatchTime(s, first), s.os.quantum);
    if !IsFinished(slice.proc) then
      var clock := if slice.quantumRemaining > 0 then slice.clock + slice.quantumRemaining else slice.clock;
      var e' := e.(cpuTime := slice.cpuTime);
      RrState(Commit(s, slot, e', slice.proc, clock), queue[1..] + [slot])
    else
      var e' := e.(cpuTime := slice.cpuTime, endTime := Some(slice.clock), state := PrDone);
      RrState(Commit(s, slot, e', slice.proc, slice.clock), queue[1..])
  }

  /** Instructions still to run, counted once per queue slot: the termination measure of Round Robin. */
  ghost function Pending(s: Machine, queue: seq<nat>): nat
    requires Schedulable(s, queue)
  {
    if queue == [] then 0
    else RemainingCount(s.procs[s.os.processTable[queue[0]].processId]) + Pending(s, queue[1..])
  }

  lemma {:induction false} PendingAppend(s: Machine, queue: seq<nat>, slot: nat)
    requires Schedulable(s, queue) && Dispatchable(s, slot)
    ensures Schedulable(s, queue + [slot])
    ensures Pending(s, queue + [slot]) == Pending(s, queue) + RemainingCount(s.procs[s.os.processTable[slot].processId])
    decreases |queue|
  {
    if queue != [] {
      assert (queue + [slot])[1..] == queue[1..] + [slot];
      PendingAppend(s, queue[1..], slot);
    } else {
      assert [] + [slot] == [slot];
    }
  }

  /** A step that only moves program counters forward cannot raise the measure. */
  lemma {:induction false} PendingShrinks(s: Machine, s': Machine, queue: seq<nat>)
    requires Schedulable(s, queue) && SameShape(s, s')
    ensures Schedulable(s', queue)
    ensures Pending(s', queue) <= Pending(s, queue)
    decreases |queue|
  {
    if queue != [] {
      PendingShrinks(s, s', queue[1..]);
    }
  }

  /** Every Round Robin dispatch lowers the measure: a slice runs at least one instruction, or drops a finished record. */
  lemma RrDispatchDecreases(s: Machine, queue: seq<nat>, first: bool)
    requires queue != [] && Schedulable(s, queue)
    requires s.os.quantum >= MaxCost
    ensures Schedulable(RrDispatch(s, queue, first).machine, RrDispatch(s, queue, first).queue)
    ensures var r := RrDispatch(s, queue, first);
            Pending(r.machine, r.queue) + |r.queue| < Pending(s, queue) + |queue|
  {
    var r := RrDispatch(s, queue, first);
    var slot := queue[0];
    assert Dispatchable(s, slot);
    PendingShrinks(s, r.machine, queue[1..]);
    if r.queue == queue[1..] + [slot] {
      SameShapeKeepsSchedulable(s, r.machine, [slot]);
      PendingAppend(r.machine, queue[1..], slot);
    }
  }

  /**
   * Round Robin over the records in `queue`. Records outside the queue are
   * untouched, CPU times never go down, and with a non-negative penalty
   * neither does the clock. (Processes are covered by `RrProcsFrame`,
   * completion by `RrCompletes`.) The quantum must fit the dearest
   * instruction, or no slice could make progress.
   */
  function RrLoop(s: Machine, queue: seq<nat>, first: bool): (r: Machine)
    requires Schedulable(s, queue)
    requires s.os.quantum >= MaxCost
    ensures SameShape(s, r)
    ensures forall i :: 0 <= i < |s.os.processTable| && i !in queue ==>
              r.os.processTable[i] == s.os.processTable[i]
    ensures forall i :: 0 <= i < |s.os.processTable| ==>
              r.os.processTable[i].cpuTime >= s.os.processTable[i].cpuTime
    ensures s.os.contextSwitchPenalty >= 0 ==> r.os.currentTime >= s.os.currentTime
    decreases Pending(s, queue) + |queue|
  {
    if queue == [] then s
    else
      var step := RrDispatch(s, queue, first);
      RrDispatchDecreases(s, queue, first);
      RrQueueWithin(s, queue, first);
      var r := RrLoop(step.machine, step.queue, false);
      SameShapeTransitive(s, step.machine, r);
      r
  }

  /** A dispatch only drops or re-queues the head: the new queue holds nothing the old one did not. */
  lemma RrQueueWithin(s: Machine, queue: seq<nat>, first: bool)
    requires queue != [] && Dispatchable(s, queue[0]) && s.os.quantum >= 0
    ensures forall i :: i in RrDispatch(s, queue, first).queue ==> i in queue
  {
  }

  /**
   * One turn of the Round Robin loop: the head record is dispatched, the
   * rest of the queue moves up by one, and a preempted head goes to the back.
   */
  lemma RrHead(s: Machine, queue: seq<nat>, first: bool)
    requires queue != [] && Schedulable(s, queue)
    requires s.os.quantum >= MaxCost
    ensures var step := RrDispatch(s, queue, first);
            && Schedulable(step.machine, step.queue)
            && Pending(step.machine, step.queue) + |step.queue| < Pending(s, queue) + |queue|
            && RrLoop(s, queue, first) == RrLoop(step.machine, step.queue, false)
            && (forall k :: 0 < k < |queue| ==> step.queue[k - 1] == queue[k])
            && (IsFinished(Proc(step.machine, queue[0])) ==> |step.queue| == |queue| - 1)
            && (!IsFinished(Proc(step.machine, queue[0])) ==>
                  |step.queue| == |queue| && step.queue[|queue| - 1] == queue[0])
  {
    RrDispatchDecreases(s, queue, first);
  }

  /** Round Robin touches only the processes of queued records, and leaves finished ones alone. */
  lemma {:induction false} RrProcsFrame(s: Machine, queue: seq<nat>, first: bool)
    requires Schedulable(s, queue)
    requires s.os.quantum >= MaxCost
    ensures forall id :: id in s.procs && (NotQueued(s, queue, id) || IsFinished(s.procs[id])) ==>
              RrLoop(s, queue, first).procs[id] == s.procs[id]
    decreases Pending(s, queue) + |queue|
  {
    if queue != [] {
      var step := RrDispatch(s, queue, first);
      RrDispatchDecreases(s, queue, first);
      RrProcsFrame(step.machine, step.queue, false);
      forall id | id in s.procs && (NotQueued(s, queue, id) || IsFinished(s.procs[id]))
        ensures step.machine.procs[id] == s.procs[id]
        ensures NotQueued(step.machine, step.queue, id) || IsFinished(step.machine.procs[id])
      {
        if NotQueued(s, queue, id) {
          assert s.os.processTable[queue[0]].processId != id;
          forall k | 0 <= k < |step.queue|
            ensures step.machine.os.processTable[step.queue[k]].processId != id
          {
            if k < |queue| - 1 {
              assert step.queue[k] == queue[k + 1];
            } else {
              assert step.queue[k] == queue[0];
            }
          }
        }
      }
    }
  }

  /** Round Robin leaves every queued record done and its process finished. */
  lemma {:induction false} RrCompletes(s: Machine, queue: seq<nat>, first: bool)
    requires Schedulable(s, queue)
    requires s.os.quantum >= MaxCost
    ensures forall k :: 0 <= k < |queue| ==> Completed(s, RrLoop(s, queue, first), queue[k])
    decreases Pending(s, queue) + |queue|
  {
    if queue != [] {
      var step := RrDispatch(s, queue, first);
      RrHead(s, queue, first);
      var r := RrLoop(step.machine, step.queue, false);
      RrCompletes(step.machine, step.queue, false);
      RrProcsFrame(step.machine, step.queue, false);
      var x := queue[0];
      assert Completed(s, r, x) by {
        if x in step.queue {
          var j :| 0 <= j < |step.queue| && step.queue[j] == x;
          assert Completed(step.machine, r, step.queue[j]);
        } else {
          var id := s.os.processTable[x].processId;
          assert IsFinished(step.machine.procs[id]);
          assert r.os.processTable[x] == step.machine.os.processTable[x];
          assert r.procs[id] == step.machine.procs[id];
        }
      }
      forall k | 0 < k < |queue|
        ensures Completed(s, r, queue[k])
      {
        assert Completed(step.machine, r, step.queue[k - 1]);
      }
    }
  }

  /** `round_robin_scheduler`: Round Robin over a copy of the ready list. */
  function RoundRobin(s: Machine): (r: Machine)
    requires Schedulable(s, s.os.readyList)
    requires s.os.quantum >= MaxCost
    ensures SameShape(s, r)
    ensures forall k :: 0 <= k < |s.os.readyList| ==> Completed(s, r, s.os.readyList[k])
  {
    RrCompletes(s, s.os.readyList, true);
    RrLoop(s, s.os.readyList, true)
  }
}

=== FILE: scheduler_properties.dfy ===
/**
 * What the two schedulers of models/scheduler.py guarantee over a whole
 * run: where the clock ends, how much CPU time each record is charged, the
 * order of completions, non-negative waiting time, and that Round Robin
 * with a quantum no process needs in full is FCFS.
 */
module SchedulerProperties {

  import opened Wrappers
  import opened Instructions
  import opened Processes
  import opened ProcessTableEntries
  import opened OperatingSystem
  import opened Scheduler

  predicate DistinctSlots(queue: seq<nat>) {
    forall j, k :: 0 <= j < k < |queue| ==> queue[j] != queue[k]
  }

  /** No two queued records belong to the same process. */
  predicate DistinctIds(s: Machine, queue: seq<nat>)
    requires Schedulable(s, queue)
  {
    forall j, k :: 0 <= j < k < |queue| ==>
      s.os.processTable[queue[j]].processId != s.os.processTable[queue[k]].processId
  }

  /** CPU time the records of `queue` gained between two tables. */
  ghost function Gain(before: seq<Entry>, after: seq<Entry>, queue: seq<nat>): int
    requires |before| == |after|
    requires forall k :: 0 <= k < |queue| ==> queue[k] < |before|
  {
    if queue == [] then 0
    else after[queue[0]].cpuTime - before[queue[0]].cpuTime + Gain(before, after, queue[1..])
  }

  /** Remaining work of the processes behind `queue`. */
  ghost function Work(s: Machine, queue: seq<nat>): nat
    requires Schedulable(s, queue)
  {
    if queue == [] then 0 else RemainingCost(Proc(s, queue[0])) + Work(s, queue[1..])
  }

  /** Context switches charged for `n` dispatches. */
  function Switches(n: nat, first: bool): nat {
    if n == 0 then 0 else if first then n - 1 else n
  }

  /** Penalty paid over `n` dispatches, one dispatch at a time. */
  function SwitchCost(pen: int, n: nat, first: bool): int {
    if n == 0 then 0 else (if first then 0 else pen) + SwitchCost(pen, n - 1, false)
  }

  lemma SwitchCostStep(pen: int, n: nat, first: bool)
    requires n > 0
    ensures SwitchCost(pen, n, first) == (if first then 0 else pen) + SwitchCost(pen, n - 1, false)
  {
  }

  /** Paying the penalty dispatch by dispatch adds up to one penalty per context switch. */
  lemma {:induction false} SwitchCostIsPerSwitch(pen: int, n: nat, first: bool)
    ensures SwitchCost(pen, n, first) == pen * Switches(n, first)
  {
    if n > 0 {
      SwitchCostIsPerSwitch(pen, n - 1, false);
      if !first {
        assert pen * n == pen * (n - 1) + pen;
      }
    }
  }

  lemma {:induction false} GainFrame(before: seq<Entry>, before': seq<Entry>, after: seq<Entry>, queue: seq<nat>)
    requires |before| == |before'| == |after|
    requires forall k :: 0 <= k < |queue| ==> queue[k] < |before|
    requires forall k :: 0 <= k < |queue| ==> before[queue[k]].cpuTime == before'[queue[k]].cpuTime
    ensures Gain(before, after, queue) == Gain(before', after, queue)
    decreases |queue|
  {
    if queue != [] {
      GainFrame(before, before', after, queue[1..]);
    }
  }

  lemma {:induction false} GainIsWork(s: Machine, r: Machine, queue: seq<nat>)
    requires Schedulable(s, queue) && SameShape(s, r)
    requires forall k :: 0 <= k < |queue| ==>
               r.os.processTable[queue[k]].cpuTime == s.os.processTable[queue[k]].cpuTime + RemainingCost(Proc(s, queue[k]))
    ensures Gain(s.os.processTable, r.os.processTable, queue) == Work(s, queue)
    decreases |queue|
  {
    if queue != [] {
      GainIsWork(s, r, queue[1..]);
    }
  }

  // ---------------------------------------------------------------------
  // FCFS
  // ---------------------------------------------------------------------

  /**
   * The FCFS clock: it ends where it started, plus the CPU time the records
   * gained, plus one penalty per dispatch but the first.
   */
  lemma {:induction false} FcfsClock(s: Machine, pending: seq<nat>, first: bool)
    requires Schedulable(s, pending) && DistinctSlots(pending)
    ensures var r := FcfsLoop(s, pending, first);
            r.os.currentTime == s.os.currentTime + Gain(s.os.processTable, r.os.processTable, pending)
                                + SwitchCost(s.os.contextSwitchPenalty, |pending|, first)
    decreases |pending|
  {
    if pending != [] {
      var rest := pending[1..];
      var s1 := FcfsDispatch(s, pending[0], first);
      var pen := s.os.contextSwitchPenalty;
      FcfsHead(s, pending, first);
      FcfsClock(s1, rest, false);
      FcfsHeadGain(s, pending, first);
      SwitchCostStep(pen, |pending|, first);
      assert |rest| == |pending| - 1;
    }
  }

  /** The CPU accounting of one FCFS turn, as the clock lemma needs it. */
  lemma FcfsHeadGain(s: Machine, pending: seq<nat>, first: bool)
    requires Schedulable(s, pending) && DistinctSlots(pending) && pending != []
    ensures var s1 := FcfsDispatch(s, pending[0], first);
            var r := FcfsLoop(s, pending, first);
            && Schedulable(s1, pending[1..])
            && s1.os.currentTime == s.os.currentTime + (if first then 0 else s.os.contextSwitchPenalty)
                                    + (r.os.processTable[pending[0]].cpuTime - s.os.processTable[pending[0]].cpuTime)
            && Gain(s1.os.processTable, r.os.processTable, pending[1..])
                 == Gain(s.os.processTable, r.os.processTable, pending[1..])
  {
    var s1 := FcfsDispatch(s, pending[0], first);
    FcfsHead(s, pending, first);
    var r := FcfsLoop(s, pending, first);
    FirstNotInRest(pending);
    GainFrame(s1.os.processTable, s.os.processTable, r.os.processTable, pending[1..]);
  }

  /** The first slot of a queue without repeats does not come back later in it. */
  lemma FirstNotInRest(queue: seq<nat>)
    requires queue != [] && DistinctSlots(queue)
    ensures queue[0] !in queue[1..]
  {
    forall j | 0 <= j < |queue[1..]|
      ensures queue[1..][j] != queue[0]
    {
      assert queue[1..][j] == queue[j + 1];
    }
  }

  /**
   * One turn of the FCFS loop: the head record is dispatched and never
   * touched again, the rest of the queue is run from there.
   */
  lemma FcfsHead(s: Machine, pending: seq<nat>, first: bool)
    requires Schedulable(s, pending) && DistinctSlots(pending) && pending != []
    ensures var s1 := FcfsDispatch(s, pending[0], first);
            && Schedulable(s1, pending[1..]) && DistinctSlots(pending[1..])
            && FcfsLoop(s, pending, first) == FcfsLoop(s1, pending[1..], false)
            && FcfsLoop(s, pending, first).os.processTable[pending[0]] == s1.os.processTable[pending[0]]
  {
    var s1 := FcfsDispatch(s, pending[0], first);
    SameShapeKeepsSchedulable(s, s1, pending[1..]);
    FirstNotInRest(pending);
  }

  /**
   * FCFS end times: every record ends no later than the final clock, and no
   * earlier than the starting clock plus the CPU time it was given.
   */
  lemma {:induction false} FcfsEndBounds(s: Machine, pending: seq<nat>, first: bool)
    requires Schedulable(s, pending) && DistinctSlots(pending)
    requires s.os.contextSwitchPenalty >= 0
    ensures var r := FcfsLoop(s, pending, first);
            forall k :: 0 <= k < |pending| ==>
              && r.os.processTable[pending[k]].endTime.Some?
              && s.os.currentTime + (r.os.processTable[pending[k]].cpuTime - s.os.processTable[pending[k]].cpuTime)
                   <= r.os.processTable[pending[k]].endTime.value
              && r.os.processTable[pending[k]].endTime.value <= r.os.currentTime
    decreases |pending|
  {
    if pending != [] {
      var rest := pending[1..];
      var s1 := FcfsDispatch(s, pending[0], first);
      FcfsHead(s, pending, first);
      FcfsEndBounds(s1, rest, false);
      var r := FcfsLoop(s1, rest, false);
      forall k | 1 <= k < |pending|
        ensures r.os.processTable[pending[k]].endTime.Some?
        ensures s.os.currentTime + (r.os.processTable[pending[k]].cpuTime - s.os.processTable[pending[k]].cpuTime)
                  <= r.os.processTable[pending[k]].endTime.value <= r.os.currentTime
      {
        assert pending[k] == rest[k - 1];
        assert pending[k] != pending[0];
        assert s1.os.processTable[pending[k]].cpuTime == s.os.processTable[pending[k]].cpuTime;
      }
    }
  }

  /** FCFS end times do not decrease in queue order. */
  lemma {:induction false} FcfsEndOrder(s: Machine, pending: seq<nat>, first: bool)
    requires Schedulable(s, pending) && DistinctSlots(pending)
    requires s.os.contextSwitchPenalty >= 0
    ensures var r := FcfsLoop(s, pending, first);
            forall j, k :: 0 <= j < k < |pending| ==>
              && r.os.processTable[pending[j]].endTime.Some?
              && r.os.processTable[pending[k]].endTime.Some?
              && r.os.processTable[pending[j]].endTime.value <= r.os.processTable[pending[k]].endTime.value
    decreases |pending|
  {
    if pending != [] {
      var rest := pending[1..];
      var s1 := FcfsDispatch(s, pending[0], first);
      FcfsHead(s, pending, first);
      FcfsEndBounds(s1, rest, false);
      FcfsEndOrder(s1, rest, false);
      var r := FcfsLoop(s1, rest, false);
      forall j, k | 0 <= j < k < |pending|
        ensures r.os.processTable[pending[j]].endTime.Some?
        ensures r.os.processTable[pending[k]].endTime.Some?
        ensures r.os.processTable[pending[j]].endTime.value <= r.os.processTable[pending[k]].endTime.value
      {
        assert pending[k] == rest[k - 1];
        if j > 0 {
          assert pending[j] == rest[j - 1];
        }
      }
    }
  }

  /** The last record FCFS runs ends at the final clock. */
  lemma {:induction false} FcfsLastEnd(s: Machine, pending: seq<nat>, first: bool)
    requires Schedulable(s, pending) && DistinctSlots(pending) && pending != []
    ensures var r := FcfsLoop(s, pending, first);
            r.os.processTable[pending[|pending| - 1]].endTime == Some(r.os.currentTime)
    decreases |pending|
  {
    var rest := pending[1..];
    var s1 := FcfsDispatch(s, pending[0], first);
    FcfsHead(s, pending, first);
    if rest != [] {
      FcfsLastEnd(s1, rest, false);
      assert pending[|pending| - 1] == rest[|rest| - 1];
    }
  }

  /**
   * With distinct processes behind the records, FCFS charges each record
   * exactly the remaining cost of its process.
   */
  lemma {:induction false} FcfsCpuTime(s: Machine, pending: seq<nat>, first: bool)
    requires Schedulable(s, pending) && DistinctIds(s, pending)
    ensures var r := FcfsLoop(s, pending, first);
            forall k :: 0 <= k < |pending| ==>
              r.os.processTable[pending[k]].cpuTime
                == s.os.processTable[pending[k]].cpuTime + RemainingCost(Proc(s, pending[k]))
    decreases |pending|
  {
    if pending != [] {
      var x := pending[0];
      var rest := pending[1..];
      var s1 := FcfsDispatch(s, x, first);
      DistinctIdsGiveDistinctSlots(s, pending);
      FcfsHead(s, pending, first);
      DistinctIdsOfRest(s, s1, pending);
      FcfsCpuTime(s1, rest, false);
      var r := FcfsLoop(s1, rest, false);
      forall k | 1 <= k < |pending|
        ensures r.os.processTable[pending[k]].cpuTime
                == s.os.processTable[pending[k]].cpuTime + RemainingCost(Proc(s, pending[k]))
      {
        assert pending[k] == rest[k - 1];
        assert s.os.processTable[pending[k]].processId != s.os.processTable[x].processId;
      }
    }
  }

  lemma DistinctIdsGiveDistinctSlots(s: Machine, queue: seq<nat>)
    requires Schedulable(s, queue) && DistinctIds(s, queue)
    ensures DistinctSlots(queue)
  {
  }

  /** Ids are part of a machine's shape, so the tail of a queue of distinct processes stays one. */
  lemma DistinctIdsOfRest(s: Machine, s1: Machine, queue: seq<nat>)
    requires Schedulable(s, queue) && DistinctIds(s, queue) && SameShape(s, s1) && queue != []
    ensures Schedulable(s1, queue[1..]) && DistinctIds(s1, queue[1..])
  {
    SameShapeKeepsSchedulable(s, s1, queue);
    forall j, k | 0 <= j < k < |queue[1..]|
      ensures s1.os.processTable[queue[1..][j]].processId != s1.os.processTable[queue[1..][k]].processId
    {
      assert queue[1..][j] == queue[j + 1] && queue[1..][k] == queue[k + 1];
    }
  }

  /**
   * `fcfs_scheduler` with distinct processes: the final clock is the
   * starting clock, plus the cost of every ready process, plus one penalty
   * for every process but the first.
   */
  lemma FcfsTotalTime(s: Machine)
    requires WellFormed(s.os) && Schedulable(s, s.os.readyList) && DistinctIds(s, s.os.readyList)
    ensures Fcfs(s).os.currentTime
              == s.os.currentTime + Work(s, s.os.readyList)
                 + s.os.contextSwitchPenalty * Switches(|s.os.readyList|, true)
  {
    var q := s.os.readyList;
    FcfsClock(s, q, true);
    SwitchCostIsPerSwitch(s.os.contextSwitchPenalty, |q|, true);
    FcfsCpuTime(s, q, true);
    GainIsWork(s, Fcfs(s), q);
  }

  // ---------------------------------------------------------------------
  // Round Robin
  // ---------------------------------------------------------------------

  /** Sum of the CPU times of all records. */
  function TotalCpu(table: seq<Entry>): int {
    if table == [] then 0 else table[0].cpuTime + TotalCpu(table[1..])
  }

  /** Replacing one record changes the sum by the change in that record's CPU time. */
  lemma {:induction false} TotalCpuUpdate(table: seq<Entry>, i: nat, e: Entry)
    requires i < |table|
    ensures TotalCpu(table[i := e]) == TotalCpu(table) - table[i].cpuTime + e.cpuTime
    decreases |table|
  {
    if i > 0 {
      assert table[i := e][1..] == table[1..][i - 1 := e];
      TotalCpuUpdate(table[1..], i - 1, e);
    }
  }

  /**
   * One Round Robin dispatch: the clock moves at least as far as the CPU
   * time the dispatched record gained, and the table's CPU total grows by
   * exactly that much.
   */
  lemma RrDispatchClock(s: Machine, queue: seq<nat>, first: bool)
    requires queue != [] && Dispatchable(s, queue[0])
    requires s.os.quantum >= 0 && s.os.contextSwitchPenalty >= 0
    ensures var r := RrDispatch(s, queue, first).machine;
            && r.os.currentTime - s.os.currentTime >= Used(s, r, queue[0])
            && TotalCpu(r.os.processTable) == TotalCpu(s.os.processTable) + Used(s, r, queue[0])
            && forall i :: 0 <= i < |s.os.processTable| ==>
                 r.os.currentTime - s.os.currentTime >= r.os.processTable[i].cpuTime - s.os.processTable[i].cpuTime
  {
    var r := RrDispatch(s, queue, first).machine;
    TotalCpuUpdate(s.os.processTable, queue[0], r.os.processTable[queue[0]]);
  }

  /**
   * With a non-negative penalty, Round Robin's clock advances at least as
   * far as the CPU time it hands out in total: idle tails of preempted
   * slices and context switches only add to it.
   */
  lemma {:induction false} RrClockCoversCpu(s: Machine, queue: seq<nat>, first: bool)
    requires Schedulable(s, queue)
    requires s.os.quantum >= MaxCost && s.os.contextSwitchPenalty >= 0
    ensures var r := RrLoop(s, queue, first);
            r.os.currentTime - s.os.currentTime >= TotalCpu(r.os.processTable) - TotalCpu(s.os.processTable)
    decreases Pending(s, queue) + |queue|
  {
    if queue != [] {
      var step := RrDispatch(s, queue, first);
      RrDispatchDecreases(s, queue, first);
      RrDispatchClock(s, queue, first);
      RrClockCoversCpu(step.machine, step.queue, false);
      assert RrLoop(s, queue, first) == RrLoop(step.machine, step.queue, false);
    }
  }

  /**
   * Round Robin end times: every queued record ends no later than the final
   * clock, and no earlier than the starting clock plus the CPU time it was
   * given. So a record whose start time plus prior CPU time is not past the
   * starting clock gets a non-negative waiting time.
   */
  lemma {:induction false} RrEndTimes(s: Machine, queue: seq<nat>, first: bool)
    requires Schedulable(s, queue)
    requires s.os.quantum >= MaxCost && s.os.contextSwitchPenalty >= 0
    ensures var r := RrLoop(s, queue, first);
            forall k :: 0 <= k < |queue| ==>
              && r.os.processTable[queue[k]].endTime.Some?
              && s.os.currentTime + (r.os.processTable[queue[k]].cpuTime - s.os.processTable[queue[k]].cpuTime)
                   <= r.os.processTable[queue[k]].endTime.value
              && r.os.processTable[queue[k]].endTime.value <= r.os.currentTime
    decreases Pending(s, queue) + |queue|
  {
    if queue != [] {
      var x := queue[0];
      var step := RrDispatch(s, queue, first);
      var s1 := step.machine;
      RrDispatchDecreases(s, queue, first);
      RrDispatchClock(s, queue, first);
      RrEndTimes(s1, step.queue, false);
      var r := RrLoop(s1, step.queue, false);
      assert r == RrLoop(s, queue, first);
      forall k | 0 <= k < |queue|
        ensures r.os.processTable[queue[k]].endTime.Some?
        ensures s.os.currentTime + (r.os.processTable[queue[k]].cpuTime - s.os.processTable[queue[k]].cpuTime)
                  <= r.os.processTable[queue[k]].endTime.value <= r.os.currentTime
      {
        if k > 0 {
          assert queue[k] == step.queue[k - 1];
        } else if x in step.queue {
          var j :| 0 <= j < |step.queue| && step.queue[j] == x;
        } else {
          assert r.os.processTable[x] == s1.os.processTable[x];
        }
      }
    }
  }

  /** The final Round Robin clock is the end time of some queued record: nothing runs after the last completion. */
  lemma {:induction false} RrLastEnd(s: Machine, queue: seq<nat>, first: bool)
    requires Schedulable(s, queue) && queue != []
    requires s.os.quantum >= MaxCost
    ensures var r := RrLoop(s, queue, first);
            exists k :: 0 <= k < |queue| && r.os.processTable[queue[k]].endTime == Some(r.os.currentTime)
    decreases Pending(s, queue) + |queue|
  {
    var step := RrDispatch(s, queue, first);
    RrHead(s, queue, first);
    var r := RrLoop(step.machine, step.queue, false);
    if step.queue == [] {
      assert r == step.machine;
    } else {
      RrLastEnd(step.machine, step.queue, false);
      var j :| 0 <= j < |step.queue| && r.os.processTable[step.queue[j]].endTime == Some(r.os.currentTime);
      if j < |queue| - 1 {
        assert step.queue[j] == queue[j + 1];
      }
    }
  }

  /** A Round Robin dispatch keeps the queue's processes distinct. */
  lemma RrDispatchDistinctIds(s: Machine, queue: seq<nat>, first: bool)
    requires queue != [] && Schedulable(s, queue) && DistinctIds(s, queue)
    requires s.os.quantum >= MaxCost
    ensures var step := RrDispatch(s, queue, first);
            Schedulable(step.machine, step.queue) && DistinctIds(step.machine, step.queue)
  {
    var step := RrDispatch(s, queue, first);
    RrDispatchDecreases(s, queue, first);
    var t := step.machine.os.processTable;
    forall j, k | 0 <= j < k < |step.queue|
      ensures t[step.queue[j]].processId != t[step.queue[k]].processId
    {
      assert step.queue[j] == queue[j + 1];
      if k < |queue| - 1 {
        assert step.queue[k] == queue[k + 1];
      } else {
        assert step.queue[k] == queue[0];
      }
    }
  }

  /**
   * With distinct processes behind the records, Round Robin charges each
   * record exactly the remaining cost of its process, however many slices
   * that takes.
   */
  lemma {:induction false} RrCpuTime(s: Machine, queue: seq<nat>, first: bool)
    requires Schedulable(s, queue) && DistinctIds(s, queue)
    requires s.os.quantum >= MaxCost
    ensures var r := RrLoop(s, queue, first);
            forall k :: 0 <= k < |queue| ==>
              r.os.processTable[queue[k]].cpuTime
                == s.os.processTable[queue[k]].cpuTime + RemainingCost(Proc(s, queue[k]))
    decreases Pending(s, queue) + |queue|
  {
    if queue != [] {
      var x := queue[0];
      var step := RrDispatch(s, queue, first);
      var s1 := step.machine;
      RrHead(s, queue, first);
      RrDispatchDistinctIds(s, queue, first);
      RrCpuTime(s1, step.queue, false);
      var r := RrLoop(s1, step.queue, false);
      forall k | 0 <= k < |queue|
        ensures r.os.processTable[queue[k]].cpuTime
                  == s.os.processTable[queue[k]].cpuTime + RemainingCost(Proc(s, queue[k]))
      {
        if k > 0 {
          assert s.os.processTable[queue[k]].processId != s.os.processTable[x].processId;
          assert Proc(s1, queue[k]) == Proc(s, queue[k]);
        } else if IsFinished(Proc(s1, x)) {
          FirstNotDuplicated(s, queue);
          assert r.os.processTable[x] == s1.os.processTable[x];
        }
      }
    }
  }

  /** The head of a queue of distinct processes is not queued again behind itself. */
  lemma FirstNotDuplicated(s: Machine, queue: seq<nat>)
    requires Schedulable(s, queue) && DistinctIds(s, queue) && queue != []
    ensures queue[0] !in queue[1..]
  {
    DistinctIdsGiveDistinctSlots(s, queue);
    FirstNotInRest(queue);
  }

  /**
   * `round_robin_scheduler` with distinct processes: every ready record is
   * charged exactly its process's cost, ends within the run, and the run
   * ends with the last completion.
   */
  lemma RoundRobinCharges(s: Machine)
    requires Schedulable(s, s.os.readyList) && DistinctIds(s, s.os.readyList)
    requires s.os.quantum >= MaxCost
    ensures var r := RoundRobin(s);
            forall k :: 0 <= k < |s.os.readyList| ==>
              r.os.processTable[s.os.readyList[k]].cpuTime
                == s.os.processTable[s.os.readyList[k]].cpuTime + RemainingCost(Proc(s, s.os.readyList[k]))
  {
    RrCpuTime(s, s.os.readyList, true);
  }

  // ---------------------------------------------------------------------
  // Round Robin against FCFS
  // ---------------------------------------------------------------------

  /** Every queued process would finish inside one quantum with some of it to spare. */
  predicate FitsQuantum(s: Machine, queue: seq<nat>)
    requires Schedulable(s, queue)
  {
    forall k :: 0 <= k < |queue| ==> RemainingCost(Proc(s, queue[k])) < s.os.quantum
  }

  /** A slice with more quantum than the process needs runs it to completion, exactly as FCFS would. */
  lemma RrDispatchIsFcfsDispatch(s: Machine, queue: seq<nat>, first: bool)
    requires queue != [] && Dispatchable(s, queue[0]) && s.os.quantum >= 0
    requires RemainingCost(Proc(s, queue[0])) < s.os.quantum
    ensures RrDispatch(s, queue, first) == RrState(FcfsDispatch(s, queue[0], first), queue[1..])
  {
    var e := s.os.processTable[queue[0]];
    var p := s.procs[e.processId];
    var slice := RunSlice(p, e.cpuTime, DispatchTime(s, first), s.os.quantum);
    var run := RunToCompletion(p, e.cpuTime, DispatchTime(s, first));
    assert slice.proc == run.proc;
  }

  /**
   * When every queued process fits in one quantum with room to spare, Round
   * Robin never preempts and behaves exactly like FCFS on the same queue.
   */
  lemma {:induction false} RrMatchesFcfs(s: Machine, queue: seq<nat>, first: bool)
    requires Schedulable(s, queue) && FitsQuantum(s, queue)
    requires s.os.quantum >= MaxCost
    ensures RrLoop(s, queue, first) == FcfsLoop(s, queue, first)
    decreases |queue|
  {
    if queue != [] {
      var x := queue[0];
      var rest := queue[1..];
      var s1 := FcfsDispatch(s, x, first);
      RrDispatchIsFcfsDispatch(s, queue, first);
      RrDispatchDecreases(s, queue, first);
      SameShapeKeepsSchedulable(s, s1, rest);
      forall k | 0 <= k < |rest|
        ensures RemainingCost(Proc(s1, rest[k])) < s1.os.quantum
      {
        assert rest[k] == queue[k + 1];
      }
      RrMatchesFcfs(s1, rest, false);
    }
  }

  /** `round_robin_scheduler` and `fcfs_scheduler` agree when no ready process needs a whole quantum. */
  lemma RoundRobinMatchesFcfs(s: Machine)
    requires Schedulable(s, s.os.readyList) && FitsQuantum(s, s.os.readyList)
    requires s.os.quantum >= MaxCost
    ensures RoundRobin(s) == Fcfs(s)
  {
    RrMatchesFcfs(s, s.os.readyList, true);
  }

  // ---------------------------------------------------------------------
  // Waiting time
  // ---------------------------------------------------------------------

  /** The ready list of a well-formed model names each record once. */
  lemma ReadyListDistinct(m: OsModel)
    requires WellFormed(m)
    ensures DistinctSlots(m.readyList)
  {
  }

  /**
   * Every ready record was admitted no later than the clock, net of any CPU
   * time it already has: true of every record admitted at the current time
   * with a fresh entry.
   */
  predicate AdmittedByNow(s: Machine)
  {
    forall k :: 0 <= k < |s.os.readyList| && s.os.readyList[k] < |s.os.processTable| ==>
      s.os.processTable[s.os.readyList[k]].startTime + s.os.processTable[s.os.readyList[k]].cpuTime
        <= s.os.currentTime
  }

  /** Under FCFS with a non-negative penalty no ready record has a negative waiting time. */
  lemma FcfsWaitingNonNegative(s: Machine)
    requires WellFormed(s.os) && Schedulable(s, s.os.readyList) && AdmittedByNow(s)
    requires s.os.contextSwitchPenalty >= 0
    ensures var r := Fcfs(s);
            forall k :: 0 <= k < |s.os.readyList| ==>
              r.os.processTable[s.os.readyList[k]].endTime.Some?
              && Waiting(r.os.processTable[s.os.readyList[k]]) >= 0
  {
    ReadyListDistinct(s.os);
    FcfsEndBounds(s, s.os.readyList, true);
  }

  /** Under Round Robin with a non-negative penalty no ready record has a negative waiting time. */
  lemma RoundRobinWaitingNonNegative(s: Machine)
    requires Schedulable(s, s.os.readyList) && AdmittedByNow(s)
    requires s.os.quantum >= MaxCost && s.os.contextSwitchPenalty >= 0
    ensures var r := RoundRobin(s);
            forall k :: 0 <= k < |s.os.readyList| ==>
              r.os.processTable[s.os.readyList[k]].endTime.Some?
              && Waiting(r.os.processTable[s.os.readyList[k]]) >= 0
  {
    RrEndTimes(s, s.os.readyList, true);
  }
}

=== FILE: wrappers.dfy ===
/** Optional values, standing in for Python's `None`. */
module Wrappers {

  datatype Option<+T> = None | Some(value: T)
}
